=== FILE: README.md ===
# GULP build script: a Dafny model

This project models the logic at the centre of a Gulp-based front-end build script
(`gulpfile.mjs` together with `createFiles.mjs`). It proves properties of that model.

The script serves three kinds of project, called flavors: static `html`, `node` (an
Express server with EJS views) and `php`. The parts modelled here are:

- **Flavor detection and choice.** `detectProjectType` looks for marker files.
  `decideProjectType` falls back to the prompt's answer when detection finds nothing.
- **Scaffolding.** `createFolders` creates the folder skeleton for a flavor.
  `createFiles` writes the starter-file catalog for a flavor. `checkFoldersAndFiles`
  runs the two in sequence. Each pass visits its list in order and skips what exists.
  `mkdir -p` fails when a file stands on its way, and that failure ends the pass.
- **Page compilation paths.** `compileKit` decides which `.kit` templates under `html/`
  are pages and where each compiled page is written. The target folder and extension
  depend on the flavor.
- **Image compression cache.** `compressImages` decides per image whether it is sent
  to the compression service. A cache of modification times drives the decision. A
  successful answer records the image's modification time and replaces the image. On
  an error the original image passes through, and the image is sent again on the next
  run.
- **Unlink handlers.** When a watched script or image is deleted, the handler rewrites
  the reported path as a string to find the build output that went with it.
- **BrowserSync client counter.** It goes up on connect and down on disconnect, never
  below zero. `reloadBS` only reloads while some client is connected.

Structure:

- The filesystem is a finite map from paths to nodes. A path is a chain of names below
  the project directory. A node is a directory or a file.
- A file holds either a starter text of the catalog (named by a `Template` tag whose
  text is in `Templates.Text`) or any other text.
- I/O becomes parameters. The filesystem is an argument and a result. The
  service's answer for an image and each image's modification time are fields of the
  image.
- Modules: `Wrappers`, `Strings`, `FileSystem`, `Layout`, `Templates`, `Flavors`, `Folders`,
  `Scaffold`, `Kit`, `Tinify`, `Unlink` and `LiveReload`.

## Model

| member | source | states |
|---|---|---|
| FileSystem.MakeDirs | gulpfile.mjs:166 | `mkdir -p d` succeeds exactly when no file stands on the way to `d`. On success every directory on the way exists. Nothing that existed changes, and everything new is a directory on the way. |
| FileSystem.MakeDirsKeepsTree | createFiles.mjs:326 | `mkdir -p` keeps every entry below a directory or below the project directory. |
| Folders.CreateFoldersKeepsTree | gulpfile.mjs:164-171 | The folders pass, complete or ended by a throw, keeps every entry below a directory or the project directory. |
| Scaffold.CreateFilesKeepsTree | createFiles.mjs:323-333 | The files pass, complete or ended by a throw, keeps every entry below a directory or the project directory. |
| Scaffold.ScaffoldKeepsTree | gulpfile.mjs:456-458 | Scaffolding keeps every entry below a directory or the project directory. |
| FileSystem.Rebase | gulpfile.mjs:307-308 | Moving a folder from below one base to below another lands within the new base. The depth shifts by the difference of the bases' depths. |
| FileSystem.RebaseRoundTrip | gulpfile.mjs:307-308 | Moving a folder to another base and back gives back the original folder. |
| Flavors.Detect | gulpfile.mjs:109-120 | Detection gives node exactly when `server.js` exists. It gives php exactly when `server.js` is missing and `index.php` or `src/php` exists. Otherwise the flavor stays unset, and html is never detected. |
| Flavors.DetectOnlySeesMarkers | gulpfile.mjs:110-113 | Two filesystems that agree on the three markers are detected alike. |
| Flavors.Decide | gulpfile.mjs:845-850 | A detected flavor is kept. The prompt's answer is used only when nothing was detected. |
| Folders.FolderList | gulpfile.mjs:139-162 | `foldersToCreate` is the fourteen base folders followed by the flavor's own folders. A folder is listed exactly when it is a base folder or one of the flavor's. |
| Folders.FolderListShape | gulpfile.mjs:139-162 | The folder list starts with the fourteen base folders. `src/php` is in it exactly for php. `views`, `routes` and `data` are in it exactly for node. For html or an unset flavor it is the base list. |
| Folders.FolderListWellFormed | gulpfile.mjs:139-162 | For every flavor, no folder is listed twice. The parent of every listed folder is listed or is the project directory. |
| Folders.Visit | gulpfile.mjs:165-166 | A folder visit returns the filesystem unchanged when the folder exists. Otherwise it succeeds exactly when no file stands in the way, and then every directory on the way is a directory and only such directories were added. |
| Folders.CreateFolders | gulpfile.mjs:164-171 | The pass never changes what existed, and it adds only directories. Those directories lie on the way to listed folders. After a complete pass every listed folder exists. A failed pass names a listed folder that had a file in its way. |
| Folders.CreateFoldersMakesWay | gulpfile.mjs:164-171 | After a complete pass, every directory on the way to each listed folder that was missing is a directory. |
| Folders.FileInWayStopsCreateFolders | gulpfile.mjs:164-167 | A listed folder that is missing with a file on its way makes the pass throw. |
| Folders.CreateFoldersSucceeds | gulpfile.mjs:164-171 | With no file in any listed folder's way, the pass completes and every listed folder is a directory. |
| Folders.CreateFoldersAllPresent | gulpfile.mjs:165 | A pass over folders that all exist changes nothing. |
| Folders.CreateFoldersIdempotent | gulpfile.mjs:164-171 | A second pass after a complete one changes nothing. |
| Folders.CreateFoldersExact | gulpfile.mjs:164-171 | Over a parent-closed list, a complete pass adds exactly the listed folders that were missing. |
| Folders.DistFileStopsCreateFolders | gulpfile.mjs:164-167 | A file named `dist` makes the pass throw at `dist/css`, and nothing is created. |
| Scaffold.Place | createFiles.mjs:323-328 | A file visit leaves an existing path alone. Otherwise the parent folder and every folder on the way to it are directories afterwards, and the entry holds its starter text. A failure means a file blocked the parent. |
| Scaffold.CreateFiles | createFiles.mjs:323-333 | The pass never changes what existed. Every new file is a catalog path holding that entry's text. Every new directory lies on the way to an entry's parent. After a complete pass every entry exists. A failed pass names an entry whose parent was blocked. |
| Scaffold.CreateFilesSucceeds | createFiles.mjs:323-333 | Without nesting in the list and with every parent reachable, the pass completes. |
| Scaffold.CreateFilesIdempotent | createFiles.mjs:324 | A second pass after a complete one changes nothing and creates no file. |
| Scaffold.CreateFilesMakesParents | createFiles.mjs:324-327 | After a complete pass, the parent folder of every entry that was missing is a directory, and so is every folder on the way to it. |
| Scaffold.CreateFilesContent | createFiles.mjs:327 | After a complete pass, every entry that was missing holds exactly its catalog text. |
| Scaffold.CreatedFilesExact | createFiles.mjs:323-333 | For a list where no entry lies on the way to another's parent and no path has two contents, the files a complete pass creates are exactly the entries that were missing. `CatalogNoNesting` and `CatalogDistinct` give both conditions for every flavor's catalog. |
| Scaffold.Catalog | createFiles.mjs:6-321 | `filesToCreate` is the nine common entries followed by the flavor's own entries. An entry is listed exactly when it is common or the flavor's. |
| Scaffold.CatalogShape | createFiles.mjs:9-206 | Every flavor's catalog starts with the same nine files at the listed paths. html or an unset flavor adds nothing. |
| Scaffold.FlavorMarkers | createFiles.mjs:208-321 | Of the detection markers, the flavor files include `server.js` exactly for node. They never include `index.php` or `src/php`. |
| Scaffold.CatalogDistinct | createFiles.mjs:6-321 | No path of any flavor's catalog is listed with two contents. |
| Scaffold.CatalogNotFolders | createFiles.mjs:6-321 | No catalog file has the path of a listed folder. |
| Scaffold.CatalogFitsFolders | createFiles.mjs:6-321 | Every catalog file lies directly in the project directory or in a folder that `createFolders` lists for the same flavor. |
| Scaffold.CatalogNoNesting | createFiles.mjs:6-321 | No catalog file sits where another entry needs a directory. |
| Scaffold.CatalogFits | gulpfile.mjs:456-458 | For every flavor, the folder list and the catalog meet every condition scaffolding relies on. |
| Scaffold.Compose | gulpfile.mjs:456-458 | Scaffolding never changes what existed before it. |
| Scaffold.ComposeExact | gulpfile.mjs:456-458 | After a complete run over fitting lists, the new paths are exactly the missing folders and files. Missing folders are directories and missing files hold their texts. The created files are exactly the missing entries. |
| Scaffold.Scaffold | gulpfile.mjs:456-458 | `checkFoldersAndFiles` with a flavor never changes what existed before it. |
| Scaffold.ScaffoldSucceeds | gulpfile.mjs:456-458 | With no file in any listed folder's way, `checkFoldersAndFiles` completes for every flavor. |
| Scaffold.ScaffoldExact | gulpfile.mjs:456-458 | After a complete run, what existed is untouched. The new paths are exactly the missing listed folders and catalog files. Each missing folder is a directory and each missing catalog file holds its starter text. The created files are exactly the missing catalog files. |
| Scaffold.ScaffoldIdempotent | gulpfile.mjs:456-458 | Scaffolding a second time with the same flavor changes nothing. |
| Scaffold.CatalogMarkers | createFiles.mjs:208-321 | Of the detection markers, the catalog holds `server.js` exactly for node and never holds `index.php` or `src/php`. The folder lists never hold `server.js` or `index.php`. |
| Scaffold.RedetectAfterScaffold | gulpfile.mjs:109-120 | After scaffolding, detection finds node for a node project. For a php project it finds php, unless `server.js` was already there. For html or an unset flavor, detection sees what it saw before. |
| Templates.IndexKitIncludesFooter | createFiles.mjs:33 | The starter page contains the include directive for `_footer.kit`. |
| Kit.OutputExt | gulpfile.mjs:292-297 | The extension is `.ejs` exactly for node, `.php` exactly for php, and `.html` for html or an unset flavor. |
| Kit.OutputDir | gulpfile.mjs:308 | Pages go to `views` exactly for node, and to the project directory otherwise. |
| Kit.SwapExtRoundTrip | gulpfile.mjs:307 | Replacing an extension and then replacing it back gives back the original name. |
| Kit.KitOutput | gulpfile.mjs:291-308 | A page is written below the flavor's target folder, under its name with the flavor's extension. It keeps its depth below `html`. |
| Kit.KitRoundTrip | gulpfile.mjs:291-308 | A page's output path leads back to the page. |
| Kit.KitOutputInjective | gulpfile.mjs:291-308 | Two pages are written to the same path exactly when they are the same page. |
| Kit.CompileKit | gulpfile.mjs:291-308 | A run compiles exactly the visible `.kit` files below `html/` whose names do not start with `_`. Each output carries the flavor's extension. |
| Kit.CompileKitInjective | gulpfile.mjs:291-308 | In one run no two templates share an output, and each output leads back to its template. |
| Kit.ScaffoldedPages | gulpfile.mjs:292-308 | The starter page compiles to `index.php` for php, to `views/index.ejs` for node and to `index.html` otherwise. Its footer fragment is not compiled. |
| Kit.FooterIncluded | gulpfile.mjs:300 | The included fragment is in every catalog next to the page. It is a fragment and never compiled as a page. |
| Tinify.RulesDifferOnlyAtZero | gulpfile.mjs:203 | The cache test as written and the intended test disagree exactly when both the cached and the current mtime are 0. |
| Tinify.Process | gulpfile.mjs:199-219 | An image is uploaded exactly when it is buffered and fails the cache test. The test is a parameter: `AsWritten` is the source's test, and `Intended` sends only when the entry is missing or differs. A successful upload records the mtime and replaces the contents. Otherwise image and cache pass through unchanged. No other cache entry changes. |
| Tinify.CompressAll | gulpfile.mjs:196-222 | Under either test, images come out in order under their names. Only names in the stream are uploaded, and cache entries of other names are untouched. |
| Tinify.CompressImages | gulpfile.mjs:177-197 | Without an API key nothing is compressed. With a key, the run starts from the loaded cache, or from an empty cache when none could be read. |
| Tinify.CompressAllOuts | gulpfile.mjs:199-219 | Under either test and with distinct names, the stream emits one image per input in order. Each is what that image's own visit emits against the cache before the run: the compressed bytes after a successful upload, the original file otherwise. |
| Tinify.CompressAllCache | gulpfile.mjs:199-219 | Under either test and with distinct names, each successful upload is recorded with its mtime. Every other entry of those names is as before the run. |
| Tinify.CompressAllProcessed | gulpfile.mjs:202-204 | Under either test and with distinct names, an image is in `filesToProcess` exactly when it is buffered and its cache entry before the run fails the test. |
| Tinify.SecondRunResendsFailures | gulpfile.mjs:203-212 | Under the intended test, a second run over the same images uploads exactly those whose first upload failed. |
| Tinify.SecondRunSendsNothing | gulpfile.mjs:203-212 | Under the intended test, when every upload succeeds, a second run uploads nothing. |
| Tinify.NothingNeededSendsNothing | gulpfile.mjs:203 | Under either test, a run over images none of which fails the test uploads nothing and keeps the cache. |
| Tinify.AsWrittenResendsZeroMtime | gulpfile.mjs:203 | Under the source's test, a run over an image with mtime 0 records it as 0, and the next run sends it again. Under the intended test, the next run sends nothing. |
| Unlink.Normalize | gulpfile.mjs:799 | Every backslash becomes a slash and nothing else changes. |
| Unlink.NormalizeIdempotent | gulpfile.mjs:799 | Normalizing twice is normalizing once. |
| Unlink.FindFrom | gulpfile.mjs:800 | The search finds the first occurrence at or after the start, or reports that there is none. |
| Unlink.ReplaceFirst | gulpfile.mjs:800 | Only the first occurrence is replaced. A string without the pattern is unchanged. |
| Unlink.ReplacePrefix | gulpfile.mjs:810 | A string that starts with the pattern has exactly that prefix replaced. |
| Unlink.MinJsSuffix | gulpfile.mjs:801 | A final `.js` becomes `.min.js` and the rest is kept. Any other string is unchanged. |
| Unlink.JsUnlinkPath | gulpfile.mjs:798-801 | The handler's path is the normalized path with its first `src/js/`, wherever it occurs, turned into `dist/js/`, and then a final `.js` turned into `.min.js`. A path without `src/js/` only gets the suffix change. |
| Unlink.ImgUnlinkPath | gulpfile.mjs:808-810 | The handler's path is the normalized path with its first `src/img/`, wherever it occurs, turned into `dist/img/`. A path without `src/img/` comes back normalized. |
| Unlink.JsUnlinkMatchesBuild | gulpfile.mjs:794-802 | For a deleted script `src/js/<rel>.js`, with any separators, the handler's path is where `minifyJS` wrote it (lines 258-277). |
| Unlink.ImgUnlinkMatchesBuild | gulpfile.mjs:806-811 | For a deleted image `src/img/<rel>`, with any separators, the handler's path is where `copyImages` wrote it (lines 250-255). |
| Unlink.JsUnlinkKeepsOtherSuffix | gulpfile.mjs:798-801 | A script path without a final `.js` only has its folder rewritten. |
| LiveReload.Step | gulpfile.mjs:69-77 | A connect adds one client. A disconnect from n > 0 clients leaves n - 1, and from zero leaves zero. |
| LiveReload.Count | gulpfile.mjs:55-77 | The counter after a sequence of events, starting at 0, is at most the number of events and at least the balance of connects over disconnects. |
| LiveReload.CountIsMaxSuffixSum | gulpfile.mjs:69-77 | After any events, the counter is the largest surplus of connects over disconnects among the recent stretches of events. |
| LiveReload.ReloadBS | gulpfile.mjs:89-104 | `reloadBS` reloads exactly when some client is connected. |
| LiveReload.ReloadAfter | gulpfile.mjs:89-104 | After any events, a reload happens exactly when some recent stretch holds more connects than disconnects. |
| LiveReload.Bind | gulpfile.mjs:66-87 | Binding marks the handlers registered and keeps the count. A second bind changes nothing. |
| LiveReload.Deliver | gulpfile.mjs:66-77 | Events change nothing before the handlers are registered. |
| LiveReload.BoundCountsOnce | gulpfile.mjs:66-87 | However often binding is repeated, each later event is counted exactly once. |

## Left out

- `gulp-file-include` expansion, Sass, terser, imagemin, webp/avif, rev, HTML minification and every other library transform: they are foreign code. Only the paths and names the script chooses are modelled.
- BrowserSync and nodemon start-up, the proxy, certificates, timers, `setInterval` reminders and `reloadBSDebounced`'s debounce: they are timing and network code.
- The interactive prompt: `Flavors.Decide` takes its answer as a parameter. The prompt's preselected answer (`html`) is not modelled.
- `.env` loading, `checkPackageUpdates`, `backupProject`, `clean`, `checkPHP` and the build-only tasks: they are outside the scaffold/compile/watch core.
- Logging with `console.log` and `chalk`: it has no effect on state.
- Tinify.CompressAll: the `through2` stream runs file by file with the upload callback finishing before the next file. Concurrent callbacks are not modelled.
- Tinify.CompressImages: the JSON cache file, `JSON.parse` and `writeFileSync` are not modelled. The parsed cache is given as `Option<Cache>`, and `None` stands for a missing or unparsable file. An mtime is an `int` where the source has a floating-point `mtimeMs`. The `copyImages` fallback without a key is `None`.
- Unlink.JsUnlinkPath and Unlink.ImgUnlinkPath: the final `existsSync`/`unlinkSync`, the `cached`/`remember` forgetting and the `try/catch` are not modelled. Only the computed path is.
- Kit.CompileKit: `gulp.dest` creating the folders of compiled pages is not modelled. Nor is overwriting the outputs.
- Scaffold.Place: the file's text is the `Template` tag, with the text itself in `Templates.Text`. `writeFileSync` failing on its own (permissions, disk) is not modelled.
- Templates.IndexKitIncludesFooter: states that the starter page contains the include directive for `_footer.kit`. It does not state that the page has no other `@@` directive: the solver cannot check the characters of the page's long text constants.
- LiveReload.Bind: a throw inside the registration `try` is not modelled.
- `Folders.CreateFolders` and `Scaffold.CreateFiles`: a throw is modelled as ending the pass with the effects so far. The uncaught exception that ends the Gulp task is not.

## Findings

| source | as written | input that shows it | evidently intended | confidence | as-written member | corrected member |
|---|---|---|---|---|---|---|
| gulpfile.mjs:203 | `!cache[rel] \|\| cache[rel] !== mtime` treats a cached mtime of 0 as missing, because 0 is falsy | an image `a.png` with `mtimeMs` 0: after it is compressed and recorded as 0, every later run sends it again | send only when the entry is missing or differs from the current mtime | low, not executed | Tinify.AsWrittenResendsZeroMtime | Tinify.SecondRunSendsNothing |

=== FILE: filesystem.dfy ===
/**
 An abstract filesystem as seen by the build script through `fs.existsSync`,
 `fs.mkdirSync(…, { recursive: true })` and `fs.writeFileSync`.
 */
module FileSystem {
  import opened Wrappers
  import opened Templates

  /** A path relative to the project directory, as a chain of names:
      "src/sass" is `Child(Child(Root, "src"), "sass")` and "." is `Root`. */
  datatype Path = Root | Child(parent: Path, name: string)

  /** Number of names in a path. */
  function Depth(p: Path): nat {
    match p
    case Root => 0
    case Child(q, _) => Depth(q) + 1
  }

  /** `path.dirname`: a top-level name has the project directory "." as parent. */
  function Dirname(p: Path): Path {
    match p
    case Root => Root
    case Child(q, _) => q
  }

  /** The directories `mkdir -p d` needs: every ancestor of `d` below the root, and `d` itself. */
  function Dirs(d: Path): (r: set<Path>)
    ensures forall q :: q in r ==> 1 <= Depth(q) <= Depth(d)
    ensures d.Child? ==> d in r
  {
    match d
    case Root => {}
    case Child(q, _) => Dirs(q) + {d}
  }

  /** Every directory `mkdir -p` needs for an ancestor is also needed for the descendant. */
  lemma {:induction false} DirsTransitive(q: Path, d: Path)
    requires q in Dirs(d)
    ensures Dirs(q) <= Dirs(d)
    decreases d
  {
    if q != d {
      DirsTransitive(q, d.parent);
    }
  }

  /** The directories `mkdir -p` needs for the parent of `p` are needed for `p` too. */
  lemma ParentDirs(p: Path)
    ensures Dirs(Dirname(p)) <= Dirs(p)
  {
  }

  /** What a file holds: one of the starter texts written by scaffolding, or any
      other text. */
  datatype Content = Starter(template: Template) | Other(text: string)

  datatype Node = Dir | File(content: Content)

  /** The filesystem below the project directory; the project directory itself always exists. */
  type Fs = map<Path, Node>

  /** `fs.existsSync`: the project directory always exists. */
  predicate Exists(fs: Fs, p: Path) {
    p == Root || p in fs
  }

  /** No file stands where `mkdir -p d` needs a directory. */
  predicate NoFileAlong(fs: Fs, d: Path) {
    forall q :: q in Dirs(d) && q in fs ==> fs[q].Dir?
  }

  /** Nothing that existed changes; whatever is new is a directory on the way to `d`. */
  predicate Grows(fs: Fs, fs': Fs, d: Path) {
    && (forall q :: q in fs ==> q in fs' && fs'[q] == fs[q])
    && (forall q :: q in fs' && q !in fs ==> fs'[q] == Dir && q in Dirs(d))
  }

  /**
   `fs.mkdirSync(d, { recursive: true })`: creates the missing directories from the
   root down. An existing directory is accepted; a file on the way (or at `d`) makes
   the call throw, and then nothing has been created.
   */
  function MakeDirs(fs: Fs, d: Path): (r: Result<Fs, Path>)
    ensures r.Success? <==> NoFileAlong(fs, d)
    ensures r.Success? ==> forall q :: q in Dirs(d) ==> q in r.value && r.value[q] == Dir
    ensures r.Success? ==> Grows(fs, r.value, d)
  {
    match d
    case Root => Success(fs)
    case Child(q, _) =>
      match MakeDirs(fs, q)
      case Failure(at) => Failure(at)
      case Success(fs1) =>
        if d !in fs1 then Success(fs1[d := Dir])
        else if fs1[d].Dir? then Success(fs1)
        else Failure(d)
  }

  /** Every entry hangs below a directory entry or directly below the project directory. */
  predicate Tree(fs: Fs) {
    forall p :: p in fs ==> p.Child? && (p.parent == Root || (p.parent in fs && fs[p.parent].Dir?))
  }

  /** `mkdir -p` keeps the filesystem a tree. */
  lemma {:induction false} MakeDirsKeepsTree(fs: Fs, d: Path)
    requires Tree(fs)
    requires MakeDirs(fs, d).Success?
    ensures Tree(MakeDirs(fs, d).value)
    decreases d
  {
    if d.Child? {
      MakeDirsKeepsTree(fs, d.parent);
    }
  }

  /** `d` is `base` or lies somewhere below it. */
  predicate Within(d: Path, base: Path)
    decreases d
  {
    d == base || (d.Child? && Within(d.parent, base))
  }

  /** Moves `d` from below `from` to the same place below `to`. */
  function Rebase(d: Path, from: Path, to: Path): (r: Path)
    requires Within(d, from)
    ensures Within(r, to)
    ensures Depth(r) + Depth(from) == Depth(d) + Depth(to)
    decreases d
  {
    if d == from then to else Child(Rebase(d.parent, from, to), d.name)
  }

  /** Only `base` itself is as shallow as `base` among the paths within it. */
  lemma {:induction false} WithinDepth(d: Path, base: Path)
    requires Within(d, base)
    ensures Depth(d) >= Depth(base)
    ensures Depth(d) == Depth(base) ==> d == base
    decreases d
  {
    if d != base {
      WithinDepth(d.parent, base);
    }
  }

  /** Moving there and back again returns the original path. */
  lemma {:induction false} RebaseRoundTrip(d: Path, from: Path, to: Path)
    requires Within(d, from)
    ensures Rebase(Rebase(d, from, to), to, from) == d
    decreases d
  {
    if d != from {
      RebaseRoundTrip(d.parent, from, to);
      var r := Rebase(d, from, to);
      WithinDepth(d.parent, from);
      assert r != to by {
        assert Depth(r) > Depth(to);
      }
    }
  }
}

=== FILE: flavors.dfy ===
/** The project flavor (`projectType`) and how the build script decides it. */
module Flavors {
  import opened Wrappers
  import opened FileSystem
  import opened Layout

  /** `"html"`, `"node"` or `"php"`; `projectType` itself is an `Option<Flavor>`,
      `None` while nothing has set it. */
  datatype Flavor = Html | NodeServer | Php

  /** `detectProjectType`: `server.js` wins; otherwise `index.php` or the folder
      `src/php` means PHP; otherwise the flavor stays unset. `existsSync` does not
      care whether a marker is a file or a directory. */
  function Detect(fs: Fs): (r: Option<Flavor>)
    ensures r == Some(NodeServer) <==> ServerJs in fs
    ensures r == Some(Php) <==> ServerJs !in fs && (IndexPhp in fs || SrcPhp in fs)
    ensures r.None? <==> ServerJs !in fs && IndexPhp !in fs && SrcPhp !in fs
    ensures r != Some(Html)
  {
    if ServerJs in fs then Some(NodeServer)
    else if IndexPhp in fs || SrcPhp in fs then Some(Php)
    else None
  }

  /** Detection looks at nothing but whether the three markers exist. */
  lemma DetectOnlySeesMarkers(fs1: Fs, fs2: Fs)
    requires (ServerJs in fs1 <==> ServerJs in fs2)
    requires (IndexPhp in fs1 <==> IndexPhp in fs2)
    requires (SrcPhp in fs1 <==> SrcPhp in fs2)
    ensures Detect(fs1) == Detect(fs2)
  {
  }

  /** `decideProjectType`: the prompt is only consulted when detection found nothing,
      and then its answer (by default `html`) is taken. */
  function Decide(detected: Option<Flavor>, answer: Flavor): (r: Flavor)
    ensures detected.Some? ==> r == detected.value
    ensures detected.None? ==> r == answer
  {
    detected.GetOr(answer)
  }
}

=== FILE: folders.dfy ===
/** `createFolders`: the folder skeleton, chosen by flavor and created when absent. */
module Folders {
  import opened Wrappers
  import opened FileSystem
  import opened Layout
  import opened Flavors

  /** The result of a create-if-absent pass: the filesystem afterwards, and the path
      whose creation threw, if any (the remaining entries are then not visited). */
  datatype Run = Run(fs: Fs, failed: Option<Path>)

  /** The fourteen folders every project gets. */
  const BaseFolders: seq<Path> := [
    Dist, DistCss, DistJs, DistImg, HtmlDir, Src, SrcImg, SrcJs, SrcSass,
    SrcSassAbstracts, SrcSassBase, SrcSassComponents, SrcSassLayout, Instrukcja
  ]

  /** The folders one flavor adds to the base list. */
  function FlavorFolders(ft: Option<Flavor>): seq<Path> {
    match ft
    case Some(Php) => [SrcPhp]
    case Some(NodeServer) => [Views, Routes, Data]
    case _ => []
  }

  /** `foldersToCreate`. */
  function FolderList(ft: Option<Flavor>): (r: seq<Path>)
    ensures |r| == |BaseFolders| + |FlavorFolders(ft)|
    ensures r[..|BaseFolders|] == BaseFolders && r[|BaseFolders|..] == FlavorFolders(ft)
    ensures forall f :: f in r <==> f in BaseFolders || f in FlavorFolders(ft)
  {
    BaseFolders + FlavorFolders(ft)
  }

  predicate Distinct<T(==)>(s: seq<T>) {
    forall i, j :: 0 <= i < j < |s| ==> s[i] != s[j]
  }

  /** Each listed folder's parent is the project directory or is listed too. */
  predicate ParentClosed(folders: seq<Path>) {
    forall f :: f in folders ==> f.Child? && (f.parent == Root || f.parent in folders)
  }

  /** The base folders in three groups: the build output and `html`, the top of
      `src`, and the Sass partial folders with `instrukcja`. */
  const DistFolders: seq<Path> := [Dist, DistCss, DistJs, DistImg, HtmlDir]
  const SrcFolders: seq<Path> := [Src, SrcImg, SrcJs, SrcSass]
  const SassFolders: seq<Path> := [SrcSassAbstracts, SrcSassBase, SrcSassComponents, SrcSassLayout, Instrukcja]

  lemma BaseFolderGroups()
    ensures BaseFolders == DistFolders + SrcFolders + SassFolders
  {
  }

  lemma GroupsDistinct()
    ensures Distinct(DistFolders) && Distinct(SrcFolders) && Distinct(SassFolders)
  {
  }

  /** No folder is in two of the groups. The facts are split into one lemma per pair of
      groups so that each proof compares only a few string constants. */
  lemma GroupsApart()
    ensures forall f :: f in SrcFolders ==> f !in DistFolders
    ensures forall f :: f in SassFolders ==> f !in DistFolders + SrcFolders
  {
    SrcApartFromDist();
    SassApartFromDist();
    SassApartFromSrc();
    assert forall f :: f in DistFolders + SrcFolders ==> f in DistFolders || f in SrcFolders;
  }

  lemma SrcApartFromDist()
    ensures forall f :: f in SrcFolders ==> f !in DistFolders
  {
  }

  lemma SassApartFromDist()
    ensures forall f :: f in SassFolders ==> f !in DistFolders
  {
  }

  lemma SassApartFromSrc()
    ensures forall f :: f in SassFolders ==> f !in SrcFolders
  {
  }

  /** The fourteen base folders are distinct and list every parent of what they list. */
  lemma BaseFoldersFacts()
    ensures |BaseFolders| == 14 && Distinct(BaseFolders)
    ensures ParentClosed(BaseFolders)
  {
    BaseFolderGroups();
    GroupsDistinct();
    GroupsApart();
    DistinctConcat(DistFolders, SrcFolders);
    DistinctConcat(DistFolders + SrcFolders, SassFolders);
    BaseFoldersClosed();
  }

  /** Each base folder hangs below the project directory, `dist`, `src` or `src/sass`. */
  lemma BaseFoldersClosed()
    ensures ParentClosed(BaseFolders)
  {
    GroupParents();
    forall f | f in BaseFolders
      ensures f.Child? && (f.parent == Root || f.parent in BaseFolders)
    {
      BaseFolderGroups();
      assert f in DistFolders || f in SrcFolders || f in SassFolders;
    }
  }

  lemma GroupParents()
    ensures forall f :: f in DistFolders ==> f.Child? && f.parent in [Root, Dist]
    ensures forall f :: f in SrcFolders ==> f.Child? && f.parent in [Root, Src]
    ensures forall f :: f in SassFolders ==> f.Child? && f.parent in [Root, SrcSass]
    ensures Dist in BaseFolders && Src in BaseFolders && SrcSass in BaseFolders
  {
  }

  /** Folder names never contain a dot. */
  lemma FolderListUndotted(ft: Option<Flavor>)
    ensures forall f :: f in FolderList(ft) ==> f.Child? && '.' !in f.name
  {
    forall f | f in FolderList(ft)
      ensures f in DistFolders || f in SrcFolders || f in SassFolders || f in FlavorFolders(ft)
    {
      BaseFolderGroups();
    }
    DistFoldersUndotted();
    SrcFoldersUndotted();
    SassFoldersUndotted();
    FlavorFoldersUndotted(ft);
  }

  lemma DistFoldersUndotted()
    ensures forall f :: f in DistFolders ==> f.Child? && '.' !in f.name
  {
  }

  lemma SrcFoldersUndotted()
    ensures forall f :: f in SrcFolders ==> f.Child? && '.' !in f.name
  {
  }

  lemma SassFoldersUndotted()
    ensures forall f :: f in SassFolders ==> f.Child? && '.' !in f.name
  {
  }

  lemma FlavorFoldersUndotted(ft: Option<Flavor>)
    ensures forall f :: f in FlavorFolders(ft) ==> f.Child? && '.' !in f.name
  {
  }

  /** The list starts with the base folders; php adds exactly `src/php`, node exactly
      `views`, `routes` and `data`, html or an unset flavor nothing. */
  lemma FolderListShape(ft: Option<Flavor>)
    ensures FolderList(ft)[..14] == BaseFolders
    ensures SrcPhp in FolderList(ft) <==> ft == Some(Php)
    ensures (Views in FolderList(ft) <==> ft == Some(NodeServer))
         && (Routes in FolderList(ft) <==> ft == Some(NodeServer))
         && (Data in FolderList(ft) <==> ft == Some(NodeServer))
    ensures ft !in {Some(Php), Some(NodeServer)} ==> FolderList(ft) == BaseFolders
  {
    FlavorFoldersNew();
    assert FolderList(ft)[..14] == BaseFolders;
    match ft
    case Some(Php) =>
      assert FlavorFolders(ft) == [SrcPhp];
    case Some(NodeServer) =>
      assert FlavorFolders(ft) == [Views, Routes, Data];
    case _ =>
      assert FlavorFolders(ft) == [];
  }

  /** None of the flavor folders is a base folder. */
  lemma FlavorFoldersNew()
    ensures SrcPhp !in BaseFolders
    ensures Views !in BaseFolders && Routes !in BaseFolders && Data !in BaseFolders
  {
    PhpFolderNew();
    NodeFoldersNew();
  }

  /** `src/php`, `views`, `routes` and `data` are not base folders. Each fact has its own
      lemma so that each proof compares only a few string constants. */
  lemma PhpFolderNew()
    ensures SrcPhp !in BaseFolders
  {
  }

  lemma NodeFoldersNew()
    ensures Views !in BaseFolders && Routes !in BaseFolders && Data !in BaseFolders
  {
    ViewsNew();
    RoutesNew();
    DataNew();
  }

  lemma ViewsNew()
    ensures Views !in BaseFolders
  {
  }

  lemma RoutesNew()
    ensures Routes !in BaseFolders
  {
  }

  lemma DataNew()
    ensures Data !in BaseFolders
  {
  }

  /** No folder is listed twice and every parent of a listed folder is listed. */
  lemma FolderListWellFormed(ft: Option<Flavor>)
    ensures Distinct(FolderList(ft))
    ensures ParentClosed(FolderList(ft))
  {
    BaseFoldersFacts();
    var extra := FlavorFolders(ft);
    ExtraFoldersFit(ft);
    DistinctConcat(BaseFolders, extra);
    ParentClosedConcat(BaseFolders, extra);
  }

  /** The flavor folders are new, distinct, and hang below listed folders. */
  lemma ExtraFoldersFit(ft: Option<Flavor>)
    ensures Distinct(FlavorFolders(ft))
    ensures forall f :: f in FlavorFolders(ft) ==> f !in BaseFolders
    ensures forall f :: f in FlavorFolders(ft) ==> f.Child? && (f.parent == Root || f.parent in BaseFolders)
  {
    FlavorFoldersNew();
    assert Src in BaseFolders;
    match ft
    case Some(Php) =>
      assert FlavorFolders(ft) == [SrcPhp];
    case Some(NodeServer) =>
      assert FlavorFolders(ft) == [Views, Routes, Data];
    case _ =>
      assert FlavorFolders(ft) == [];
  }

  lemma ParentClosedConcat(a: seq<Path>, b: seq<Path>)
    requires ParentClosed(a)
    requires forall f :: f in b ==> f.Child? && (f.parent == Root || f.parent in a)
    ensures ParentClosed(a + b)
  {
    forall f | f in a + b
      ensures f.Child? && (f.parent == Root || f.parent in a + b)
    {
      if f in a {
        assert f.parent == Root || f.parent in a;
      }
    }
  }

  lemma DistinctConcat<T>(a: seq<T>, b: seq<T>)
    requires Distinct(a) && Distinct(b)
    requires forall x :: x in b ==> x !in a
    ensures Distinct(a + b)
  {
    forall i, j | 0 <= i < j < |a + b|
      ensures (a + b)[i] != (a + b)[j]
    {
      if j < |a| {
      } else if i >= |a| {
        assert (a + b)[i] == b[i - |a|] && (a + b)[j] == b[j - |a|];
      } else {
        assert (a + b)[j] == b[j - |a|] && (a + b)[i] == a[i];
        assert b[j - |a|] in b;
      }
    }
  }

  /** Every directory `mkdir -p` may create on the way to one of `folders`. */
  function AllDirs(folders: seq<Path>): (r: set<Path>)
    ensures forall f :: f in folders && f.Child? ==> f in r
  {
    if folders == [] then {} else Dirs(folders[0]) + AllDirs(folders[1..])
  }

  /** One visit of the `forEach` of `createFolders`: skip what exists, else `mkdir -p`. */
  function Visit(fs: Fs, f: Path): (r: Result<Fs, Path>)
    ensures Exists(fs, f) ==> r == Success(fs)
    ensures r.Success? ==> Exists(r.value, f) && Grows(fs, r.value, f)
    ensures r.Success? && !Exists(fs, f) ==> forall q :: q in Dirs(f) ==> q in r.value && r.value[q] == Dir
    ensures r.Failure? ==> !Exists(fs, f) && !NoFileAlong(fs, f)
  {
    if Exists(fs, f) then Success(fs) else MakeDirs(fs, f)
  }

  /** A folder visit keeps every entry below a directory or the project directory. */
  lemma VisitKeepsTree(fs: Fs, f: Path)
    requires Tree(fs)
    ensures Visit(fs, f).Success? ==> Tree(Visit(fs, f).value)
  {
    if !Exists(fs, f) && MakeDirs(fs, f).Success? {
      MakeDirsKeepsTree(fs, f);
    }
  }

  /**
   The `forEach` of `createFolders`: visits the folders in order; a throw of
   `mkdir -p` ends the pass with the folders created so far.
   */
  function CreateFolders(fs: Fs, folders: seq<Path>): (r: Run)
    ensures forall q :: q in fs ==> q in r.fs && r.fs[q] == fs[q]
    ensures forall q :: q in r.fs && q !in fs ==> r.fs[q] == Dir
    ensures r.fs.Keys <= fs.Keys + AllDirs(folders)
    ensures r.failed.None? ==> forall f :: f in folders ==> Exists(r.fs, f)
    ensures r.failed.Some? ==> r.failed.value in folders && !NoFileAlong(fs, r.failed.value)
    decreases |folders|
  {
    if folders == [] then Run(fs, None)
    else
      match Visit(fs, folders[0])
      case Failure(_) => Run(fs, Some(folders[0]))
      case Success(fs1) =>
        var r := CreateFolders(fs1, folders[1..]);
        assert forall g :: g in folders[1..] ==> g in folders;
        assert r.failed.Some? ==> !NoFileAlong(fs, r.failed.value) by {
          if r.failed.Some? {
            var q :| q in Dirs(r.failed.value) && q in fs1 && fs1[q].File?;
          }
        }
        r
  }

  /** The folders pass keeps every entry below a directory or the project directory,
      whether it completes or throws. */
  lemma {:induction false} CreateFoldersKeepsTree(fs: Fs, folders: seq<Path>)
    requires Tree(fs)
    ensures Tree(CreateFolders(fs, folders).fs)
    decreases |folders|
  {
    if folders != [] {
      VisitKeepsTree(fs, folders[0]);
      if Visit(fs, folders[0]).Success? {
        CreateFoldersKeepsTree(Visit(fs, folders[0]).value, folders[1..]);
      }
    }
  }

  /** After a complete pass, every directory on the way to a listed folder that was
      missing is a directory. */
  lemma {:induction false} CreateFoldersMakesWay(fs: Fs, folders: seq<Path>)
    requires CreateFolders(fs, folders).failed.None?
    ensures forall f :: f in folders && !Exists(fs, f) ==>
      forall q :: q in Dirs(f) ==> q in CreateFolders(fs, folders).fs && CreateFolders(fs, folders).fs[q] == Dir
    decreases |folders|
  {
    if folders != [] {
      var f0 := folders[0];
      var fs1 := Visit(fs, f0).value;
      var rest := folders[1..];
      var r := CreateFolders(fs, folders);
      assert r == CreateFolders(fs1, rest);
      CreateFoldersMakesWay(fs1, rest);
      forall f | f in folders && !Exists(fs, f)
        ensures forall q :: q in Dirs(f) ==> q in r.fs && r.fs[q] == Dir
      {
        if f == f0 {
        } else if !Exists(fs1, f) {
          assert f in rest;
        } else {
          assert f in Dirs(f0);
          DirsTransitive(f, f0);
        }
      }
    }
  }

  /** A listed folder that is missing with a file on its way makes the pass throw. */
  lemma FileInWayStopsCreateFolders(fs: Fs, folders: seq<Path>, f: Path)
    requires f in folders && !Exists(fs, f) && !NoFileAlong(fs, f)
    ensures CreateFolders(fs, folders).failed.Some?
  {
    if CreateFolders(fs, folders).failed.None? {
      CreateFoldersMakesWay(fs, folders);
    }
  }

  /** With no file in the way, the pass completes and every listed folder is a directory. */
  lemma CreateFoldersSucceeds(fs: Fs, folders: seq<Path>)
    requires forall f :: f in folders ==> NoFileAlong(fs, f)
    ensures CreateFolders(fs, folders).failed.None?
    ensures forall f :: f in folders && f.Child? ==> CreateFolders(fs, folders).fs[f] == Dir
  {
    var r := CreateFolders(fs, folders);
    forall f | f in folders && f.Child?
      ensures r.fs[f] == Dir
    {
      assert f in Dirs(f);
    }
  }

  /** A pass over folders that all exist changes nothing. */
  lemma {:induction false} CreateFoldersAllPresent(fs: Fs, folders: seq<Path>)
    requires forall f :: f in folders ==> Exists(fs, f)
    ensures CreateFolders(fs, folders) == Run(fs, None)
    decreases |folders|
  {
    if folders != [] {
      assert forall f :: f in folders[1..] ==> f in folders;
      CreateFoldersAllPresent(fs, folders[1..]);
    }
  }

  /** Running `createFolders` a second time changes nothing. */
  lemma CreateFoldersIdempotent(fs: Fs, folders: seq<Path>)
    requires CreateFolders(fs, folders).failed.None?
    ensures CreateFolders(CreateFolders(fs, folders).fs, folders) == CreateFolders(fs, folders)
  {
    CreateFoldersAllPresent(CreateFolders(fs, folders).fs, folders);
  }

  /** In a parent-closed list, the directories on the way to a listed folder are listed. */
  lemma {:induction false} DirsListed(folders: seq<Path>, f: Path)
    requires ParentClosed(folders)
    requires f in folders
    ensures Dirs(f) <= set g | g in folders
    decreases f
  {
    if f.parent != Root {
      DirsListed(folders, f.parent);
    }
  }

  lemma {:induction false} AllDirsListed(folders: seq<Path>, part: seq<Path>)
    requires ParentClosed(folders)
    requires forall f :: f in part ==> f in folders
    ensures AllDirs(part) <= set g | g in folders
    decreases |part|
  {
    if part != [] {
      DirsListed(folders, part[0]);
      assert forall f :: f in part[1..] ==> f in part;
      AllDirsListed(folders, part[1..]);
    }
  }

  /** Over a parent-closed list (every flavor's list is one), `createFolders`
      creates exactly the listed folders that were missing: `mkdir -p` never has
      to create a parent on its own. */
  lemma CreateFoldersExact(fs: Fs, folders: seq<Path>)
    requires ParentClosed(folders)
    requires CreateFolders(fs, folders).failed.None?
    ensures CreateFolders(fs, folders).fs.Keys == fs.Keys + set f | f in folders
  {
    AllDirsListed(folders, folders);
  }

  /** A file named `dist` makes `mkdir -p dist/css` throw: the pass stops there with
      nothing created. */
  lemma DistFileStopsCreateFolders(ft: Option<Flavor>, c: Content)
    ensures CreateFolders(map[Dist := File(c)], FolderList(ft)) == Run(map[Dist := File(c)], Some(DistCss))
  {
    var fs := map[Dist := File(c)];
    var folders := FolderList(ft);
    assert folders[0] == Dist && folders[1] == DistCss;
    assert CreateFolders(fs, folders) == CreateFolders(fs, folders[1..]);
    assert MakeDirs(fs, DistCss).Failure?;
  }
}

=== FILE: kit.dfy ===
/**
 `compileKit`: which `.kit` templates under `html/` become pages, and the name and
 folder each compiled page is written to. The include expansion itself happens in
 `gulp-file-include` and is not part of this model.
 */
module Kit {
  import opened Wrappers
  import opened FileSystem
  import opened Layout
  import opened Flavors
  import opened Templates
  import opened Scaffold
  import opened Strings

  const KitExt := ".kit"

  /** `ext`: `.php` for php, `.ejs` for node, `.html` for html and for an unset flavor. */
  function OutputExt(ft: Option<Flavor>): (r: string)
    ensures r == ".ejs" <==> ft == Some(NodeServer)
    ensures r == ".php" <==> ft == Some(Php)
    ensures r == ".html" <==> ft !in {Some(NodeServer), Some(Php)}
  {
    match ft
    case Some(Php) => ".php"
    case Some(NodeServer) => ".ejs"
    case _ => ".html"
  }

  /** The `gulp.dest` folder: `views` for node, the project directory otherwise. */
  function OutputDir(ft: Option<Flavor>): (r: Path)
    ensures r == Views <==> ft == Some(NodeServer)
    ensures r == Root <==> ft != Some(NodeServer)
  {
    if ft == Some(NodeServer) then Views else Root
  }

  /** A glob `*` or `**` step never matches a name that starts with a dot. */
  predicate Visible(name: string) {
    |name| > 0 && name[0] != '.'
  }

  /** A name the exclusion pattern of `compileKit` removes: it starts with `_`. */
  predicate IsFragmentName(name: string) {
    |name| > 0 && name[0] == '_'
  }

  /** A folder the page pattern walks into: `html` itself or a visible folder below it. */
  predicate InPages(d: Path)
    decreases d
  {
    d == HtmlDir || (d.Child? && Visible(d.name) && InPages(d.parent))
  }

  /** A `.kit` file the page pattern matches and the exclusion pattern keeps. */
  predicate IsPage(p: Path) {
    && p.Child?
    && Visible(p.name)
    && EndsWith(p.name, KitExt)
    && !IsFragmentName(p.name)
    && InPages(p.parent)
  }

  lemma {:induction false} InPagesWithin(d: Path)
    requires InPages(d)
    ensures Within(d, HtmlDir)
    decreases d
  {
    if d != HtmlDir {
      InPagesWithin(d.parent);
    }
  }

  /** Replaces the last `|from|` characters of `name` by `to`. */
  function SwapExt(name: string, from: string, to: string): (r: string)
    requires EndsWith(name, from)
    ensures EndsWith(r, to)
    ensures |r| + |from| == |name| + |to|
  {
    var r := name[..|name| - |from|] + to;
    assert r[|r| - |to|..] == to;
    r
  }

  lemma SwapExtRoundTrip(name: string, from: string, to: string)
    requires EndsWith(name, from)
    ensures SwapExt(SwapExt(name, from, to), to, from) == name
  {
    var r := SwapExt(name, from, to);
    assert r[..|r| - |to|] == name[..|name| - |from|];
    assert name == name[..|name| - |from|] + from;
  }

  /**
   Where a page is written: the same folders below the destination folder as below
   `html`, and the name with `.kit` replaced by the flavor's extension
   (`rename({ extname })`).
   */
  function KitOutput(ft: Option<Flavor>, p: Path): (r: Path)
    requires IsPage(p)
    ensures r.Child? && Within(r.parent, OutputDir(ft)) && EndsWith(r.name, OutputExt(ft))
    ensures Depth(r) + Depth(HtmlDir) == Depth(p) + Depth(OutputDir(ft))
  {
    InPagesWithin(p.parent);
    Child(Rebase(p.parent, HtmlDir, OutputDir(ft)), SwapExt(p.name, KitExt, OutputExt(ft)))
  }

  /** The template a compiled page came from. */
  function KitSource(ft: Option<Flavor>, out: Path): (r: Path)
    requires out.Child? && Within(out.parent, OutputDir(ft)) && EndsWith(out.name, OutputExt(ft))
    ensures r.Child? && Within(r.parent, HtmlDir) && EndsWith(r.name, KitExt)
  {
    Child(Rebase(out.parent, OutputDir(ft), HtmlDir), SwapExt(out.name, OutputExt(ft), KitExt))
  }

  /** Every page can be traced back from its output. */
  lemma KitRoundTrip(ft: Option<Flavor>, p: Path)
    requires IsPage(p)
    ensures KitSource(ft, KitOutput(ft, p)) == p
  {
    InPagesWithin(p.parent);
    RebaseRoundTrip(p.parent, HtmlDir, OutputDir(ft));
    SwapExtRoundTrip(p.name, KitExt, OutputExt(ft));
  }

  /** Two different pages are never written to the same place. */
  lemma KitOutputInjective(ft: Option<Flavor>, p: Path, q: Path)
    requires IsPage(p) && IsPage(q)
    ensures KitOutput(ft, p) == KitOutput(ft, q) <==> p == q
  {
    KitRoundTrip(ft, p);
    KitRoundTrip(ft, q);
  }

  /** The templates one `compileKit` run picks up from the filesystem. */
  function Pages(fs: Fs): set<Path> {
    set p | p in fs && fs[p].File? && IsPage(p)
  }

  /** One `compileKit` run: each picked-up template and the path it is written to. */
  function CompileKit(fs: Fs, ft: Option<Flavor>): (r: map<Path, Path>)
    ensures r.Keys == Pages(fs)
    ensures forall p :: p in r ==> !IsFragmentName(p.name) && r[p].Child? && EndsWith(r[p].name, OutputExt(ft))
  {
    map p | p in Pages(fs) :: KitOutput(ft, p)
  }

  /** No two templates of one run share an output path, and each output leads back
      to its template. */
  lemma CompileKitInjective(fs: Fs, ft: Option<Flavor>)
    ensures forall p :: p in CompileKit(fs, ft) ==> KitSource(ft, CompileKit(fs, ft)[p]) == p
    ensures forall p, q :: p in CompileKit(fs, ft) && q in CompileKit(fs, ft) && p != q ==>
      CompileKit(fs, ft)[p] != CompileKit(fs, ft)[q]
  {
    var r := CompileKit(fs, ft);
    forall p | p in r
      ensures KitSource(ft, r[p]) == p
    {
      KitRoundTrip(ft, p);
    }
  }

  /** The scaffolded page compiles to `index.php` for php, to `views/index.ejs` for
      node and to `index.html` otherwise; its footer fragment is never compiled. */
  lemma ScaffoldedPages(ft: Option<Flavor>)
    ensures IsPage(IndexKitPath)
    ensures ft == Some(Php) ==> KitOutput(ft, IndexKitPath) == IndexPhp
    ensures ft == Some(NodeServer) ==> KitOutput(ft, IndexKitPath) == Child(Views, "index.ejs")
    ensures ft !in {Some(Php), Some(NodeServer)} ==> KitOutput(ft, IndexKitPath) == Top("index.html")
    ensures !IsPage(FooterKitPath)
  {
    assert EndsWith("index.kit", KitExt) by {
      assert "index.kit"[5..] == ".kit";
    }
    assert SwapExt("index.kit", KitExt, OutputExt(ft)) == "index" + OutputExt(ft) by {
      assert "index.kit"[..5] == "index";
    }
  }

  /** The fragment the scaffolded page includes (`Templates.IndexKitIncludesFooter`)
      is in the catalog next to the page, and as a fragment it is never emitted as a
      page itself. */
  lemma FooterIncluded(ft: Option<Flavor>)
    ensures Entry(FooterKitPath, FooterKitFile) in Catalog(ft)
    ensures Dirname(FooterKitPath) == Dirname(IndexKitPath) && FooterKitPath.name == FooterFragment
    ensures IsFragmentName(FooterFragment) && !IsPage(FooterKitPath)
  {
    FooterInCatalog(ft);
    FooterNotPage();
  }

  lemma FooterNotPage()
    ensures IsFragmentName(FooterFragment) && !IsPage(FooterKitPath)
  {
  }

  lemma FooterInCatalog(ft: Option<Flavor>)
    ensures Entry(FooterKitPath, FooterKitFile) in Catalog(ft)
  {
    assert Catalog(ft)[1] == Entry(FooterKitPath, FooterKitFile);
  }
}

=== FILE: layout.dfy ===
/** The fixed project layout the build script works in, written as paths. */
module Layout {
  import opened FileSystem

  function Top(name: string): Path { Child(Root, name) }

  const Dist := Top("dist")
  const DistCss := Child(Dist, "css")
  const DistJs := Child(Dist, "js")
  const DistImg := Child(Dist, "img")
  const HtmlDir := Top("html")
  const Src := Top("src")
  const SrcImg := Child(Src, "img")
  const SrcJs := Child(Src, "js")
  const SrcSass := Child(Src, "sass")
  const SrcSassAbstracts := Child(SrcSass, "abstracts")
  const SrcSassBase := Child(SrcSass, "base")
  const SrcSassComponents := Child(SrcSass, "components")
  const SrcSassLayout := Child(SrcSass, "layout")
  const Instrukcja := Top("instrukcja")
  const SrcPhp := Child(Src, "php")
  const Views := Top("views")
  const Routes := Top("routes")
  const Data := Top("data")

  /** Marker files that reveal the kind of project. */
  const ServerJs := Top("server.js")
  const IndexPhp := Top("index.php")
}

=== FILE: livereload.dfy ===
/**
 The BrowserSync client counter of `bindBrowserSyncEvents` and the gate in `reloadBS`:
 a connect adds one client, a disconnect removes one but never goes below zero, and a
 reload is only sent while some client is connected.
 */
module LiveReload {

  datatype ClientEvent = Connected | Disconnected

  /** One `client:connected` or `client:disconnected` handler run. */
  function Step(n: nat, e: ClientEvent): (r: nat)
    ensures e.Connected? ==> r == n + 1
    ensures e.Disconnected? ==> (n > 0 ==> r + 1 == n) && (n == 0 ==> r == 0)
  {
    match e
    case Connected => n + 1
    case Disconnected => if n > 0 then n - 1 else 0
  }

  /** `bsClients` after a sequence of events, starting from its initial value 0. It
      never exceeds the number of events and never falls below the net balance. */
  function Count(es: seq<ClientEvent>): (r: nat)
    ensures r <= |es|
    ensures r >= Sum(es)
    decreases |es|
  {
    if es == [] then 0 else Step(Count(es[..|es| - 1]), es[|es| - 1])
  }

  /** The net effect of one event when nothing clamps it. */
  function Delta(e: ClientEvent): int {
    if e.Connected? then 1 else -1
  }

  /** Connects minus disconnects. */
  function Sum(es: seq<ClientEvent>): int
    decreases |es|
  {
    if es == [] then 0 else Sum(es[..|es| - 1]) + Delta(es[|es| - 1])
  }

  /**
   The counter equals the largest net balance of connects over disconnects among
   the suffixes of the event sequence (the empty suffix counts, with balance 0):
   clamping at zero forgets exactly the surplus disconnects of the past.
   */
  lemma {:induction false} CountIsMaxSuffixSum(es: seq<ClientEvent>)
    ensures forall k :: 0 <= k <= |es| ==> Sum(es[k..]) <= Count(es)
    ensures exists k :: 0 <= k <= |es| && Sum(es[k..]) == Count(es)
    decreases |es|
  {
    if es == [] {
      assert Sum(es[0..]) == 0;
    } else {
      var n := |es|;
      var p, x := es[..n - 1], es[n - 1];
      CountIsMaxSuffixSum(p);
      forall k | 0 <= k <= n
        ensures Sum(es[k..]) <= Count(es)
      {
        if k < n {
          SuffixStep(es, k);
        } else {
          assert es[k..] == [];
        }
      }
      if Count(p) + Delta(x) >= 0 {
        var k :| 0 <= k <= |p| && Sum(p[k..]) == Count(p);
        SuffixStep(es, k);
      } else {
        assert es[n..] == [] && Sum(es[n..]) == 0 == Count(es);
      }
    }
  }

  /** A suffix that ends with the last event extends the same suffix of the prefix. */
  lemma SuffixStep(es: seq<ClientEvent>, k: nat)
    requires k < |es|
    ensures Sum(es[k..]) == Sum(es[..|es| - 1][k..]) + Delta(es[|es| - 1])
  {
    var s := es[k..];
    assert s[..|s| - 1] == es[..|es| - 1][k..];
  }

  /** What `reloadBS` does. */
  datatype Action = Reload | WarnNoClients

  /** `reloadBS`: reload while some client is connected, otherwise only warn. */
  function ReloadBS(clients: nat): (r: Action)
    ensures r == Reload <==> clients > 0
  {
    if clients > 0 then Reload else WarnNoClients
  }

  /** After a sequence of events a reload is sent exactly when some recent stretch of
      events holds more connects than disconnects. */
  lemma ReloadAfter(es: seq<ClientEvent>)
    ensures ReloadBS(Count(es)) == Reload <==> exists k :: 0 <= k <= |es| && Sum(es[k..]) > 0
  {
    CountIsMaxSuffixSum(es);
  }

  /** Whether `bindBrowserSyncEvents` has registered the handlers, and the count they keep. */
  datatype Monitor = Monitor(bound: bool, clients: nat)

  const Initial := Monitor(false, 0)

  /** `bindBrowserSyncEvents`: registers the handlers once; a later call returns at once. */
  function Bind(m: Monitor): (r: Monitor)
    ensures r.bound && r.clients == m.clients
    ensures m.bound ==> r == m
  {
    if m.bound then m else m.(bound := true)
  }

  /** An event reaches the counter only once the handlers are registered. */
  function Deliver(m: Monitor, e: ClientEvent): (r: Monitor)
    ensures r.bound == m.bound
    ensures !m.bound ==> r == m
  {
    if m.bound then m.(clients := Step(m.clients, e)) else m
  }

  function DeliverAll(m: Monitor, es: seq<ClientEvent>): Monitor
    decreases |es|
  {
    if es == [] then m else Deliver(DeliverAll(m, es[..|es| - 1]), es[|es| - 1])
  }

  /** However often the handlers are bound, each event after binding is counted once:
      the monitor ends at the counter of those events. */
  lemma {:induction false} BoundCountsOnce(binds: nat, es: seq<ClientEvent>)
    requires binds >= 1
    ensures DeliverAll(BindTimes(Initial, binds), es) == Monitor(true, Count(es))
    decreases |es|
  {
    BindTimesBound(Initial, binds);
    if es != [] {
      BoundCountsOnce(binds, es[..|es| - 1]);
    }
  }

  function BindTimes(m: Monitor, n: nat): Monitor
    decreases n
  {
    if n == 0 then m else Bind(BindTimes(m, n - 1))
  }

  lemma {:induction false} BindTimesBound(m: Monitor, n: nat)
    requires n >= 1
    ensures BindTimes(m, n) == m.(bound := true)
    decreases n
  {
    if n > 1 {
      BindTimesBound(m, n - 1);
    }
  }
}

=== FILE: scaffold.dfy ===
/** `createFiles`: the starter-file catalog, chosen by flavor, written when absent. */
module Scaffold {
  import opened Wrappers
  import opened FileSystem
  import opened Layout
  import opened Flavors
  import opened Folders
  import opened Templates

  /** One catalog entry: where the file goes and what it says. */
  datatype Entry = Entry(path: Path, template: Template)

  const IndexKitPath := Child(HtmlDir, "index.kit")
  const FooterKitPath := Child(HtmlDir, FooterFragment)

  /** The nine files every project gets. */
  const CommonEntries: seq<Entry> := [
    Entry(IndexKitPath, IndexKitFile),
    Entry(FooterKitPath, FooterKitFile),
    Entry(Child(SrcSassAbstracts, "_mixins.scss"), MixinsFile),
    Entry(Child(SrcSassBase, "_base.scss"), BaseFile),
    Entry(Child(SrcSassBase, "_utilities.scss"), UtilitiesFile),
    Entry(Child(SrcSass, "style.scss"), StyleFile),
    Entry(Child(SrcJs, "script.js"), ScriptFile),
    Entry(Child(Instrukcja, "instrukcja.md"), ManualFile),
    Entry(Top(".gitignore"), GitIgnoreFile)
  ]

  /** The files one flavor adds. */
  function FlavorEntries(ft: Option<Flavor>): seq<Entry> {
    match ft
    case Some(NodeServer) => [
      Entry(ServerJs, ServerFile),
      Entry(Child(Routes, "link.js"), LinkFile),
      Entry(Child(Data, "database.js"), DatabaseFile),
      Entry(Child(Views, "500.ejs"), ErrorPageFile)
    ]
    case Some(Php) => [Entry(Child(SrcPhp, "app.php"), AppPhpFile)]
    case _ => []
  }

  /** `filesToCreate`. */
  function Catalog(ft: Option<Flavor>): (r: seq<Entry>)
    ensures |r| == |CommonEntries| + |FlavorEntries(ft)|
    ensures r[..|CommonEntries|] == CommonEntries && r[|CommonEntries|..] == FlavorEntries(ft)
    ensures forall e :: e in r <==> e in CommonEntries || e in FlavorEntries(ft)
  {
    CommonEntries + FlavorEntries(ft)
  }

  function PathsOf(entries: seq<Entry>): set<Path> {
    set e | e in entries :: e.path
  }

  /** Every directory `mkdir -p` may create for the parent of some entry. */
  function EntryDirs(entries: seq<Entry>): set<Path> {
    if entries == [] then {} else Dirs(Dirname(entries[0].path)) + EntryDirs(entries[1..])
  }

  /** The files that are in `fs'` but were not in `fs`. */
  function CreatedFiles(fs: Fs, fs': Fs): set<Path> {
    set q | q in fs' && q !in fs && fs'[q].File?
  }

  /** One visit of the `forEach` of `createFiles`: an existing path is left alone;
      otherwise its parent is made with `mkdir -p` and the content written. */
  function Place(fs: Fs, e: Entry): (r: Result<Fs, Path>)
    ensures r.Success? ==> Exists(r.value, e.path)
    ensures r.Success? ==> forall q :: q in fs ==> q in r.value && r.value[q] == fs[q]
    ensures r.Success? ==> forall q :: q in r.value && q !in fs ==>
      (q == e.path && q.Child? && r.value[q] == File(Starter(e.template))) || (r.value[q] == Dir && q in Dirs(Dirname(e.path)))
    ensures r.Success? && !Exists(fs, e.path) ==>
      forall q :: q in Dirs(Dirname(e.path)) ==> q in r.value && r.value[q] == Dir
    ensures r.Failure? ==> !Exists(fs, e.path) && !NoFileAlong(fs, Dirname(e.path))
  {
    if Exists(fs, e.path) then Success(fs)
    else match MakeDirs(fs, Dirname(e.path))
      case Failure(at) => Failure(at)
      case Success(fs1) =>
        assert e.path !in fs1 by {
          assert e.path !in Dirs(Dirname(e.path));
        }
        Success(fs1[e.path := File(Starter(e.template))])
  }

  /**
   The `forEach` of `createFiles`: visits the catalog in order. Nothing that existed
   changes; what is new is a catalog file with its catalog content or a directory on
   the way to one; a throw of `mkdir -p` ends the pass.
   */
  function CreateFiles(fs: Fs, entries: seq<Entry>): (r: Run)
    ensures forall q :: q in fs ==> q in r.fs && r.fs[q] == fs[q]
    ensures forall q :: q in r.fs && q !in fs && r.fs[q].File? ==> (q.Child? && exists e :: e in entries && e.path == q && r.fs[q] == File(Starter(e.template)))
    ensures forall q :: q in r.fs && q !in fs && r.fs[q].Dir? ==> q in EntryDirs(entries)
    ensures r.failed.None? ==> forall e :: e in entries ==> Exists(r.fs, e.path)
    ensures r.failed.Some? ==>
      && r.failed.value in PathsOf(entries)
      && !Exists(r.fs, r.failed.value)
      && !NoFileAlong(r.fs, Dirname(r.failed.value))
    decreases |entries|
  {
    if entries == [] then Run(fs, None)
    else
      match Place(fs, entries[0])
      case Failure(_) => Run(fs, Some(entries[0].path))
      case Success(fs1) =>
        var r := CreateFiles(fs1, entries[1..]);
        assert forall e :: e in entries[1..] ==> e in entries;
        assert entries[0] in entries;
        r
  }

  /** No entry sits where `mkdir -p` would need a directory for another entry. */
  predicate NoNesting(entries: seq<Entry>) {
    forall e1, e2 :: e1 in entries && e2 in entries ==> e1.path !in Dirs(Dirname(e2.path))
  }

  /** No path is listed with two contents. */
  predicate DistinctPaths(entries: seq<Entry>) {
    forall e1, e2 :: e1 in entries && e2 in entries && e1.path == e2.path ==> e1 == e2
  }

  /** Each entry exists already or nothing blocks `mkdir -p` of its parent. */
  predicate Ready(fs: Fs, entries: seq<Entry>) {
    forall e :: e in entries ==> Exists(fs, e.path) || NoFileAlong(fs, Dirname(e.path))
  }

  lemma {:induction false} EntryDirsMember(entries: seq<Entry>, q: Path)
    requires q in EntryDirs(entries)
    ensures exists e :: e in entries && q in Dirs(Dirname(e.path))
    decreases |entries|
  {
    if q !in Dirs(Dirname(entries[0].path)) {
      EntryDirsMember(entries[1..], q);
      var e :| e in entries[1..] && q in Dirs(Dirname(e.path));
      assert e in entries;
    }
  }

  /** Without nesting in the catalog and with nothing in the way, the pass completes. */
  lemma {:induction false} CreateFilesSucceeds(fs: Fs, entries: seq<Entry>)
    requires NoNesting(entries)
    requires Ready(fs, entries)
    ensures CreateFiles(fs, entries).failed.None?
    decreases |entries|
  {
    if entries != [] {
      var e0 := entries[0];
      var fs1 := Place(fs, e0).value;
      var rest := entries[1..];
      assert forall e :: e in rest ==> e in entries;
      forall e | e in rest && !Exists(fs1, e.path)
        ensures NoFileAlong(fs1, Dirname(e.path))
      {
        assert NoFileAlong(fs, Dirname(e.path));
        assert e0.path !in Dirs(Dirname(e.path));
      }
      CreateFilesSucceeds(fs1, rest);
    }
  }

  /** A pass over entries that all exist changes nothing. */
  lemma {:induction false} CreateFilesAllPresent(fs: Fs, entries: seq<Entry>)
    requires forall e :: e in entries ==> Exists(fs, e.path)
    ensures CreateFiles(fs, entries) == Run(fs, None)
    decreases |entries|
  {
    if entries != [] {
      assert forall e :: e in entries[1..] ==> e in entries;
      CreateFilesAllPresent(fs, entries[1..]);
    }
  }

  /** Running `createFiles` a second time changes nothing and creates nothing. */
  lemma CreateFilesIdempotent(fs: Fs, entries: seq<Entry>)
    requires CreateFiles(fs, entries).failed.None?
    ensures CreateFiles(CreateFiles(fs, entries).fs, entries) == CreateFiles(fs, entries)
    ensures CreatedFiles(CreateFiles(fs, entries).fs, CreateFiles(CreateFiles(fs, entries).fs, entries).fs) == {}
  {
    CreateFilesAllPresent(CreateFiles(fs, entries).fs, entries);
  }

  /** Every entry that was absent now holds exactly its catalog content. */
  lemma CreateFilesContent(fs: Fs, entries: seq<Entry>)
    requires NoNesting(entries) && DistinctPaths(entries)
    requires CreateFiles(fs, entries).failed.None?
    ensures forall e :: e in entries && !Exists(fs, e.path) ==> CreateFiles(fs, entries).fs[e.path] == File(Starter(e.template))
  {
    var r := CreateFiles(fs, entries);
    forall e | e in entries && !Exists(fs, e.path)
      ensures r.fs[e.path] == File(Starter(e.template))
    {
      assert e.path in r.fs;
      if r.fs[e.path].Dir? {
        EntryDirsMember(entries, e.path);
        assert false;
      }
      var e' :| e' in entries && e'.path == e.path && r.fs[e.path] == File(Starter(e'.template));
    }
  }

  /** The files a pass creates are exactly the entries that were absent. */
  lemma CreatedFilesExact(fs: Fs, entries: seq<Entry>)
    requires NoNesting(entries) && DistinctPaths(entries)
    requires CreateFiles(fs, entries).failed.None?
    ensures CreatedFiles(fs, CreateFiles(fs, entries).fs) == set e | e in entries && !Exists(fs, e.path) :: e.path
  {
    var r := CreateFiles(fs, entries);
    CreateFilesContent(fs, entries);
    forall q | q in CreatedFiles(fs, r.fs)
      ensures q in set e | e in entries && !Exists(fs, e.path) :: e.path
    {
      var e :| e in entries && e.path == q && r.fs[q] == File(Starter(e.template));
    }
  }

  /** After a complete pass, the parent folder of every entry that was missing is a
      directory, with all the directories on the way to it. */
  lemma {:induction false} CreateFilesMakesParents(fs: Fs, entries: seq<Entry>)
    requires CreateFiles(fs, entries).failed.None?
    ensures forall e :: e in entries && !Exists(fs, e.path) ==>
      forall q :: q in Dirs(Dirname(e.path)) ==> q in CreateFiles(fs, entries).fs && CreateFiles(fs, entries).fs[q] == Dir
    decreases |entries|
  {
    if entries != [] {
      var e0 := entries[0];
      var fs1 := Place(fs, e0).value;
      var rest := entries[1..];
      var r := CreateFiles(fs, entries);
      assert r == CreateFiles(fs1, rest);
      CreateFilesMakesParents(fs1, rest);
      forall e | e in entries && !Exists(fs, e.path)
        ensures forall q :: q in Dirs(Dirname(e.path)) ==> q in r.fs && r.fs[q] == Dir
      {
        if e == e0 {
        } else if !Exists(fs1, e.path) {
          assert e in rest;
        } else if e.path == e0.path {
        } else {
          assert e.path in Dirs(Dirname(e0.path));
          DirsTransitive(e.path, Dirname(e0.path));
          ParentDirs(e.path);
        }
      }
    }
  }

  /** A file visit keeps every entry below a directory or the project directory: the
      file is written into the parent `mkdir -p` has just made. */
  lemma PlaceKeepsTree(fs: Fs, e: Entry)
    requires Tree(fs)
    ensures Place(fs, e).Success? ==> Tree(Place(fs, e).value)
  {
    if !Exists(fs, e.path) && MakeDirs(fs, Dirname(e.path)).Success? {
      MakeDirsKeepsTree(fs, Dirname(e.path));
    }
  }

  /** The files pass keeps every entry below a directory or the project directory,
      whether it completes or throws. */
  lemma {:induction false} CreateFilesKeepsTree(fs: Fs, entries: seq<Entry>)
    requires Tree(fs)
    ensures Tree(CreateFiles(fs, entries).fs)
    decreases |entries|
  {
    if entries != [] {
      PlaceKeepsTree(fs, entries[0]);
      if Place(fs, entries[0]).Success? {
        CreateFilesKeepsTree(Place(fs, entries[0]).value, entries[1..]);
      }
    }
  }

  /** The paths of a list of entries, in order. */
  function PathList(entries: seq<Entry>): (r: seq<Path>)
    ensures |r| == |entries|
    ensures forall i :: 0 <= i < |entries| ==> r[i] == entries[i].path
  {
    seq(|entries|, i requires 0 <= i < |entries| => entries[i].path)
  }

  /** Distinct paths in the list mean no path has two contents. */
  lemma DistinctPathList(entries: seq<Entry>)
    requires Distinct(PathList(entries))
    ensures DistinctPaths(entries)
  {
    forall e1, e2 | e1 in entries && e2 in entries && e1.path == e2.path
      ensures e1 == e2
    {
      var i :| 0 <= i < |entries| && entries[i] == e1;
      var j :| 0 <= j < |entries| && entries[j] == e2;
      assert PathList(entries)[i] == PathList(entries)[j];
    }
  }

  /** Every project gets the same nine files; html or an unset flavor adds nothing. */
  lemma CatalogShape(ft: Option<Flavor>)
    ensures |CommonEntries| == 9 && Catalog(ft)[..9] == CommonEntries
    ensures PathList(CommonEntries) == CommonPaths
    ensures ft !in {Some(NodeServer), Some(Php)} ==> Catalog(ft) == CommonEntries
  {
    assert Catalog(ft)[..9] == CommonEntries;
  }

  lemma CatalogPathList(ft: Option<Flavor>)
    ensures PathList(Catalog(ft)) == PathList(CommonEntries) + PathList(FlavorEntries(ft))
  {
    PathListConcat(CommonEntries, FlavorEntries(ft));
  }

  lemma PathListConcat(a: seq<Entry>, b: seq<Entry>)
    ensures PathList(a + b) == PathList(a) + PathList(b)
  {
  }

  const CommonPaths: seq<Path> := [
    IndexKitPath, FooterKitPath, Child(SrcSassAbstracts, "_mixins.scss"),
    Child(SrcSassBase, "_base.scss"), Child(SrcSassBase, "_utilities.scss"),
    Child(SrcSass, "style.scss"), Child(SrcJs, "script.js"),
    Child(Instrukcja, "instrukcja.md"), Top(".gitignore")]

  lemma CommonPathsDistinct()
    ensures Distinct(CommonPaths)
  {
  }

  /** Every catalog file has a dot in its name. */
  lemma CommonDotted()
    ensures forall e :: e in CommonEntries ==> e.path.Child? && '.' in e.path.name
  {
  }

  lemma FlavorDotted(ft: Option<Flavor>)
    ensures forall e :: e in FlavorEntries(ft) ==> e.path.Child? && '.' in e.path.name
  {
  }

  /** A name with a dot in it is never a listed folder. */
  lemma NotAFolder(ft: Option<Flavor>, p: Path)
    requires p.Child? && '.' in p.name
    ensures p !in FolderList(ft)
  {
    FolderListUndotted(ft);
  }

  /** Each common file sits in a base folder, except `.gitignore` at the top. */
  lemma CommonParents()
    ensures forall e :: e in CommonEntries ==>
      if Dirname(e.path) == Root then e.path == Top(".gitignore") else Dirname(e.path) in BaseFolders
  {
    CommonParentList();
    assert forall d :: d in CommonParentFolders ==> d in BaseFolders;
  }

  /** The folders the common files live in. */
  const CommonParentFolders: seq<Path> := [HtmlDir, SrcSassAbstracts, SrcSassBase, SrcSass, SrcJs, Instrukcja]

  lemma CommonParentList()
    ensures forall e :: e in CommonEntries ==>
      if Dirname(e.path) == Root then e.path == Top(".gitignore") else Dirname(e.path) in CommonParentFolders
  {
  }

  /** Each flavor file sits in a folder of its flavor, except `server.js` at the top. */
  lemma FlavorParents(ft: Option<Flavor>)
    ensures forall e :: e in FlavorEntries(ft) ==>
      if Dirname(e.path) == Root then e.path == ServerJs else Dirname(e.path) in FlavorFolders(ft)
  {
  }

  /** Two lists with one content per path and no path in common keep that property together. */
  lemma DistinctPathsConcat(a: seq<Entry>, b: seq<Entry>)
    requires DistinctPaths(a) && DistinctPaths(b)
    requires forall e1, e2 :: e1 in a && e2 in b ==> e1.path != e2.path
    ensures DistinctPaths(a + b)
  {
    forall e1, e2 | e1 in a + b && e2 in a + b && e1.path == e2.path
      ensures e1 == e2
    {
      assert (e1 in a || e1 in b) && (e2 in a || e2 in b);
    }
  }

  /** No flavor file shares its path with a common file: they live in different folders,
      and the two at the top have different names. */
  lemma CommonFlavorApart(ft: Option<Flavor>)
    ensures forall e1, e2 :: e1 in CommonEntries && e2 in FlavorEntries(ft) ==> e1.path != e2.path
  {
    CommonParents();
    FlavorParents(ft);
    ExtraFoldersFit(ft);
    forall e1, e2 | e1 in CommonEntries && e2 in FlavorEntries(ft)
      ensures e1.path != e2.path
    {
      if Dirname(e2.path) == Root {
        assert e2.path == ServerJs;
        assert Dirname(e1.path) != Root ==> Dirname(e1.path) in BaseFolders;
      } else {
        assert Dirname(e2.path) !in BaseFolders;
      }
    }
  }

  lemma CommonDistinct()
    ensures DistinctPaths(CommonEntries)
  {
    assert PathList(CommonEntries) == CommonPaths;
    CommonPathsDistinct();
    DistinctPathList(CommonEntries);
  }

  lemma FlavorDistinct(ft: Option<Flavor>)
    ensures DistinctPaths(FlavorEntries(ft))
  {
  }

  /** No path of the catalog is listed with two contents. */
  lemma CatalogDistinct(ft: Option<Flavor>)
    ensures DistinctPaths(Catalog(ft))
  {
    CommonDistinct();
    FlavorDistinct(ft);
    CommonFlavorApart(ft);
    DistinctPathsConcat(CommonEntries, FlavorEntries(ft));
  }

  /** No catalog file shares its path with a listed folder. */
  lemma CatalogNotFolders(ft: Option<Flavor>)
    ensures forall e :: e in Catalog(ft) ==> e.path.Child? && e.path !in FolderList(ft)
  {
    CommonDotted();
    FlavorDotted(ft);
    FolderListUndotted(ft);
    forall e | e in Catalog(ft)
      ensures e.path.Child? && '.' in e.path.name
    {
      assert e in CommonEntries || e in FlavorEntries(ft);
    }
  }

  /** Each catalog file lives directly in the project directory or in a listed folder. */
  lemma CatalogFitsFolders(ft: Option<Flavor>)
    ensures forall e :: e in Catalog(ft) ==> Dirname(e.path) == Root || Dirname(e.path) in FolderList(ft)
  {
    CommonParents();
    FlavorParents(ft);
    forall e | e in Catalog(ft)
      ensures Dirname(e.path) == Root || Dirname(e.path) in FolderList(ft)
    {
      if e in CommonEntries {
        assert Dirname(e.path) == Root || Dirname(e.path) in BaseFolders;
      } else {
        assert e in FlavorEntries(ft);
      }
    }
  }

  /** Every directory `createFiles` could need for a catalog file is a listed folder. */
  lemma CatalogDirsListed(ft: Option<Flavor>)
    ensures forall e :: e in Catalog(ft) ==> Dirs(Dirname(e.path)) <= set f | f in FolderList(ft)
    ensures EntryDirs(Catalog(ft)) <= set f | f in FolderList(ft)
  {
    CatalogFitsFolders(ft);
    FolderListWellFormed(ft);
    forall e | e in Catalog(ft)
      ensures Dirs(Dirname(e.path)) <= set f | f in FolderList(ft)
    {
      if Dirname(e.path) != Root {
        DirsListed(FolderList(ft), Dirname(e.path));
      }
    }
    forall q | q in EntryDirs(Catalog(ft))
      ensures q in FolderList(ft)
    {
      EntryDirsMember(Catalog(ft), q);
    }
  }

  /** The catalog is free of nesting: no catalog file sits on another's directory path. */
  lemma CatalogNoNesting(ft: Option<Flavor>)
    ensures NoNesting(Catalog(ft))
  {
    CatalogDirsListed(ft);
    CatalogNotFolders(ft);
    forall e1, e2 | e1 in Catalog(ft) && e2 in Catalog(ft)
      ensures e1.path !in Dirs(Dirname(e2.path))
    {
      assert e1.path !in FolderList(ft);
    }
  }

  /** The catalog facts scaffolding relies on, over an arbitrary folder list and
      file list: no nesting, one content per path, files are never folders, and
      every directory a file needs is a listed folder. */
  predicate Fits(folders: seq<Path>, entries: seq<Entry>) {
    && ParentClosed(folders)
    && NoNesting(entries)
    && DistinctPaths(entries)
    && (forall e :: e in entries ==> e.path.Child? && e.path !in folders)
    && (forall e :: e in entries ==> Dirs(Dirname(e.path)) <= set f | f in folders)
    && EntryDirs(entries) <= set f | f in folders
  }

  lemma CatalogFits(ft: Option<Flavor>)
    ensures Fits(FolderList(ft), Catalog(ft))
  {
    CatalogDirsListed(ft);
    CatalogNoNesting(ft);
    CatalogDistinct(ft);
    CatalogNotFolders(ft);
    FolderListWellFormed(ft);
  }

  /** Folders first, then, unless that pass threw, files. */
  function Compose(fs: Fs, folders: seq<Path>, entries: seq<Entry>): (r: Run)
    ensures forall q :: q in fs ==> q in r.fs && r.fs[q] == fs[q]
  {
    var r1 := CreateFolders(fs, folders);
    if r1.failed.Some? then r1 else CreateFiles(r1.fs, entries)
  }

  lemma ComposeSucceeds(fs: Fs, folders: seq<Path>, entries: seq<Entry>)
    requires Fits(folders, entries)
    requires forall f :: f in folders ==> NoFileAlong(fs, f)
    ensures Compose(fs, folders, entries).failed.None?
  {
    CreateFoldersSucceeds(fs, folders);
    var fs1 := CreateFolders(fs, folders).fs;
    forall e | e in entries
      ensures NoFileAlong(fs1, Dirname(e.path))
    {
      forall q | q in Dirs(Dirname(e.path)) && q in fs1
        ensures fs1[q].Dir?
      {
        assert q in folders;
      }
    }
    CreateFilesSucceeds(fs1, entries);
  }

  lemma ComposeExact(fs: Fs, folders: seq<Path>, entries: seq<Entry>)
    requires Fits(folders, entries)
    requires Compose(fs, folders, entries).failed.None?
    ensures Compose(fs, folders, entries).fs.Keys == fs.Keys + (set f | f in folders) + PathsOf(entries)
    ensures forall f :: f in folders && f !in fs ==> Compose(fs, folders, entries).fs[f] == Dir
    ensures forall e :: e in entries && e.path !in fs ==> Compose(fs, folders, entries).fs[e.path] == File(Starter(e.template))
    ensures CreatedFiles(fs, Compose(fs, folders, entries).fs) == set e | e in entries && e.path !in fs :: e.path
  {
    var r1 := CreateFolders(fs, folders);
    CreateFoldersExact(fs, folders);
    ComposeKeys(fs, folders, entries);
    ComposeFiles(fs, folders, entries);
    var r := Compose(fs, folders, entries);
    forall f | f in folders && f !in fs
      ensures r.fs[f] == Dir
    {
      assert f in r1.fs && r1.fs[f] == Dir;
    }
  }

  lemma ComposeKeys(fs: Fs, folders: seq<Path>, entries: seq<Entry>)
    requires Fits(folders, entries)
    requires Compose(fs, folders, entries).failed.None?
    ensures Compose(fs, folders, entries).fs.Keys == fs.Keys + (set f | f in folders) + PathsOf(entries)
  {
    var r1 := CreateFolders(fs, folders);
    var r := Compose(fs, folders, entries);
    CreateFoldersExact(fs, folders);
    forall q | q in r.fs && q !in r1.fs
      ensures q in PathsOf(entries)
    {
      if r.fs[q].Dir? {
        EntryDirsMember(entries, q);
        assert false;
      } else {
        var e :| e in entries && e.path == q && r.fs[q] == File(Starter(e.template));
      }
    }
  }

  lemma ComposeFiles(fs: Fs, folders: seq<Path>, entries: seq<Entry>)
    requires Fits(folders, entries)
    requires Compose(fs, folders, entries).failed.None?
    ensures forall e :: e in entries && e.path !in fs ==> Compose(fs, folders, entries).fs[e.path] == File(Starter(e.template))
    ensures CreatedFiles(fs, Compose(fs, folders, entries).fs) == set e | e in entries && e.path !in fs :: e.path
  {
    var r1 := CreateFolders(fs, folders);
    FilesAbsentAfterFolders(fs, folders, entries);
    CreateFilesContent(r1.fs, entries);
    CreatedFilesExact(r1.fs, entries);
    CreatedAfterFolders(fs, r1.fs, CreateFiles(r1.fs, entries).fs);
  }

  /** The folder pass leaves every catalog file as absent as it was. */
  lemma FilesAbsentAfterFolders(fs: Fs, folders: seq<Path>, entries: seq<Entry>)
    requires Fits(folders, entries)
    requires CreateFolders(fs, folders).failed.None?
    ensures forall e :: e in entries ==> (e.path !in fs <==> !Exists(CreateFolders(fs, folders).fs, e.path))
  {
    CreateFoldersExact(fs, folders);
  }

  /** Files new since a pass that only made directories are new since before it. */
  lemma CreatedAfterFolders(fs: Fs, fs1: Fs, fs2: Fs)
    requires forall q :: q in fs ==> q in fs1 && fs1[q] == fs[q]
    requires forall q :: q in fs1 && q !in fs ==> fs1[q] == Dir
    requires forall q :: q in fs1 ==> q in fs2 && fs2[q] == fs1[q]
    ensures CreatedFiles(fs, fs2) == CreatedFiles(fs1, fs2)
  {
  }

  lemma ComposeIdempotent(fs: Fs, folders: seq<Path>, entries: seq<Entry>)
    requires Compose(fs, folders, entries).failed.None?
    ensures Compose(Compose(fs, folders, entries).fs, folders, entries) == Compose(fs, folders, entries)
  {
    var r := Compose(fs, folders, entries);
    CreateFoldersAllPresent(r.fs, folders);
    CreateFilesAllPresent(r.fs, entries);
  }

  /** `checkFoldersAndFiles`: `createFolders`, then, unless it threw, `createFiles`
      with the same flavor. */
  function Scaffold(fs: Fs, ft: Option<Flavor>): (r: Run)
    ensures forall q :: q in fs ==> q in r.fs && r.fs[q] == fs[q]
  {
    Compose(fs, FolderList(ft), Catalog(ft))
  }

  /** Scaffolding keeps every entry below a directory or the project directory. */
  lemma ScaffoldKeepsTree(fs: Fs, ft: Option<Flavor>)
    requires Tree(fs)
    ensures Tree(Scaffold(fs, ft).fs)
  {
    CreateFoldersKeepsTree(fs, FolderList(ft));
    CreateFilesKeepsTree(CreateFolders(fs, FolderList(ft)).fs, Catalog(ft));
  }

  /** With no file where a listed folder must go, scaffolding completes. */
  lemma ScaffoldSucceeds(fs: Fs, ft: Option<Flavor>)
    requires forall f :: f in FolderList(ft) ==> NoFileAlong(fs, f)
    ensures Scaffold(fs, ft).failed.None?
  {
    CatalogFits(ft);
    ComposeSucceeds(fs, FolderList(ft), Catalog(ft));
  }

  /** After scaffolding: what existed is untouched; the new paths are exactly the
      listed folders and catalog files that were missing; every listed folder is a
      directory; every catalog file that was missing holds its catalog content; and
      the files created are exactly the catalog files that were missing. */
  lemma ScaffoldExact(fs: Fs, ft: Option<Flavor>)
    requires Scaffold(fs, ft).failed.None?
    ensures Scaffold(fs, ft).fs.Keys == fs.Keys + (set f | f in FolderList(ft)) + PathsOf(Catalog(ft))
    ensures forall f :: f in FolderList(ft) && f !in fs ==> Scaffold(fs, ft).fs[f] == Dir
    ensures forall e :: e in Catalog(ft) && e.path !in fs ==> Scaffold(fs, ft).fs[e.path] == File(Starter(e.template))
    ensures CreatedFiles(fs, Scaffold(fs, ft).fs) == set e | e in Catalog(ft) && e.path !in fs :: e.path
  {
    CatalogFits(ft);
    ComposeExact(fs, FolderList(ft), Catalog(ft));
  }

  /** Scaffolding a second time with the same flavor changes nothing. */
  lemma ScaffoldIdempotent(fs: Fs, ft: Option<Flavor>)
    requires Scaffold(fs, ft).failed.None?
    ensures Scaffold(Scaffold(fs, ft).fs, ft) == Scaffold(fs, ft)
  {
    ComposeIdempotent(fs, FolderList(ft), Catalog(ft));
  }

  lemma PathsOfList(entries: seq<Entry>)
    ensures PathsOf(entries) == set p | p in PathList(entries)
  {
    forall e | e in entries
      ensures e.path in PathList(entries)
    {
      var i :| 0 <= i < |entries| && entries[i] == e;
    }
  }

  /** Of the three detection markers, the catalog holds only `server.js`, and only
      for node; the folder lists hold only `src/php`, and only for php. */
  lemma CatalogMarkers(ft: Option<Flavor>)
    ensures ServerJs in PathsOf(Catalog(ft)) <==> ft == Some(NodeServer)
    ensures IndexPhp !in PathsOf(Catalog(ft)) && SrcPhp !in PathsOf(Catalog(ft))
    ensures ServerJs !in FolderList(ft) && IndexPhp !in FolderList(ft)
  {
    PathsOfList(Catalog(ft));
    CatalogPathList(ft);
    CommonMarkers();
    FlavorMarkers(ft);
    FolderMarkers(ft);
  }

  lemma CommonMarkers()
    ensures PathList(CommonEntries) == CommonPaths
    ensures ServerJs !in CommonPaths && IndexPhp !in CommonPaths && SrcPhp !in CommonPaths
  {
    CatalogShape(None);
  }

  lemma FlavorMarkers(ft: Option<Flavor>)
    ensures ServerJs in PathList(FlavorEntries(ft)) <==> ft == Some(NodeServer)
    ensures IndexPhp !in PathList(FlavorEntries(ft)) && SrcPhp !in PathList(FlavorEntries(ft))
  {
    var ps := PathList(FlavorEntries(ft));
    match ft
    case Some(NodeServer) =>
      assert ps == [ServerJs, Child(Routes, "link.js"), Child(Data, "database.js"), Child(Views, "500.ejs")];
    case Some(Php) =>
      assert ps == [Child(SrcPhp, "app.php")];
    case _ =>
      assert ps == [];
  }

  lemma FolderMarkers(ft: Option<Flavor>)
    ensures ServerJs !in FolderList(ft) && IndexPhp !in FolderList(ft)
  {
    NotAFolder(ft, ServerJs);
    NotAFolder(ft, IndexPhp);
  }

  /** A scaffolded node project is detected as node and a php one as php (unless a
      `server.js` was already there); scaffolding html, or with the flavor unset,
      creates no marker, so detection sees what it saw before. */
  lemma RedetectAfterScaffold(fs: Fs, ft: Option<Flavor>)
    requires Scaffold(fs, ft).failed.None?
    ensures ft == Some(NodeServer) ==> Detect(Scaffold(fs, ft).fs) == Some(NodeServer)
    ensures ft == Some(Php) ==> Detect(Scaffold(fs, ft).fs) == if ServerJs in fs then Some(NodeServer) else Some(Php)
    ensures ft !in {Some(NodeServer), Some(Php)} ==> Detect(Scaffold(fs, ft).fs) == Detect(fs)
  {
    var r := Scaffold(fs, ft);
    ScaffoldExact(fs, ft);
    CatalogMarkers(ft);
    FolderListShape(ft);
    assert ServerJs in r.fs <==> ServerJs in fs || ft == Some(NodeServer);
    assert IndexPhp in r.fs <==> IndexPhp in fs;
    assert SrcPhp in r.fs <==> SrcPhp in fs || ft == Some(Php);
  }
}

=== FILE: strings.dfy ===
/** Small string predicates shared by the page and unlink models. */
module Strings {

  /** `s` ends with `suffix`. */
  predicate EndsWith(s: string, suffix: string) {
    |suffix| <= |s| && s[|s| - |suffix|..] == suffix
  }
}

=== FILE: templates.dfy ===
/**
 The starter files `createFiles` writes, verbatim. Each constant is the text of one
 file, written one line per literal.
 */
module Templates {

  /** The name of the fragment the starter page includes. */
  const FooterFragment: string := "_footer.kit"

  /** The include directive `gulp-file-include` expands (prefix `@@`). */
  function IncludeDirective(target: string): string {
    "@@include('" + target + "')"
  }

  /** Text of `html/index.kit` before its include directive. */
  const IndexKitHead: string :=
    "<!DOCTYPE html>\n" +
    "<html lang=\"pl\">\n" +
    "<head>\n" +
    "    <meta charset=\"UTF-8\" />\n" +
    "    <meta http-equiv=\"X-UA-Compatible\" content=\"IE=edge\" />\n" +
    "    <meta\n" +
    "      name=\"description\"\n" +
    "      content=\"Opis strony\"\n" +
    "    />\n" +
    "    <meta\n" +
    "      name=\"keywords\"\n" +
    "      content=\"słowa kluczowe\"\n" +
    "    />\n" +
    "    <meta name=\"robots\" content=\"index, follow\" />\n" +
    "    <meta name=\"author\" content=\"Twoje Imię\" />\n" +
    "    <meta name=\"viewport\" content=\"width=device-width, initial-scale=1.0\" />\n" +
    "    <title>Tytuł strony</title>\n" +
    "    <link rel=\"stylesheet\" href=\"/dist/css/style.min.css\" />\n" +
    "</head>\n" +
    "<body>\n" +
    "    <h1>Hello All!</h1>\n" +
    "    "

  /** Text of `html/index.kit` after its include directive. */
  const IndexKitTail: string :=
    "\n" +
    "    <script src=\"/dist/js/script.min.js\"></script>\n" +
    "</body>\n" +
    "</html>"

  /** `html/index.kit`: the starter page, which includes the footer fragment. */
  const IndexKit: string := IndexKitHead + IncludeDirective(FooterFragment) + IndexKitTail

  /** `part` occurs somewhere in `s`. */
  ghost predicate IsInfix(part: string, s: string) {
    exists pre, post :: s == pre + part + post
  }

  /** The starter page includes the footer fragment. */
  lemma IndexKitIncludesFooter()
    ensures IsInfix(IncludeDirective(FooterFragment), IndexKit)
  {
    var pre, post := IndexKitHead, IndexKitTail;
    assert IndexKit == pre + IncludeDirective(FooterFragment) + post;
  }

  /** `html/_footer.kit`. */
  const FooterKit: string :=
    "<footer></footer>"

  /** `src/sass/abstracts/_mixins.scss`. */
  const MixinsScss: string :=
    "@mixin center {\n" +
    "  top: 50%;\n" +
    "  left: 50%;\n" +
    "  transform: translate(-50%, -50%);\n" +
    "  position: absolute;\n" +
    "}\n" +
    "\n" +
    "// Mixin do obsługi responsywności\n" +
    "@mixin respond($breakpoint) {\n" +
    "  @if $breakpoint == \"phone\" {\n" +
    "    @media only screen and (min-width: 37.5em) {\n" +
    "      @content;\n" +
    "    }\n" +
    "  } @else if $breakpoint == \"tab-port\" {\n" +
    "    @media only screen and (min-width: 56.25em) {\n" +
    "      @content;\n" +
    "    }\n" +
    "  } @else if $breakpoint == \"tab-land\" {\n" +
    "    @media only screen and (min-width: 75em) {\n" +
    "      @content;\n" +
    "    }\n" +
    "  } @else if $breakpoint == \"big-desktop\" {\n" +
    "    @media only screen and (min-width: 112.5em) {\n" +
    "      @content;\n" +
    "    }\n" +
    "  }\n" +
    "}"

  /** `src/sass/base/_base.scss`. */
  const BaseScss: string :=
    "@import \"../abstracts/mixins\";\n" +
    "\n" +
    "*,\n" +
    "*::before,\n" +
    "*::after {\n" +
    "  margin: 0;\n" +
    "  padding: 0;\n" +
    "  box-sizing: inherit;\n" +
    "}\n" +
    "\n" +
    "html {\n" +
    "  font-size: 62.5%;\n" +
    "\n" +
    "  @include respond(\"phone\") {\n" +
    "    font-size: 75%;\n" +
    "  }\n" +
    "\n" +
    "  @include respond(\"tab-port\") {\n" +
    "    font-size: 100%;\n" +
    "  }\n" +
    "\n" +
    "  @include respond(\"tab-land\") {\n" +
    "    font-size: 125%;\n" +
    "  }\n" +
    "\n" +
    "  @include respond(\"big-desktop\") {\n" +
    "    font-size: 150%;\n" +
    "  }\n" +
    "}\n" +
    "\n" +
    "body {\n" +
    "  box-sizing: border-box;\n" +
    "}"

  /** `src/sass/base/_utilities.scss`. */
  const UtilitiesScss: string :=
    ".u-center-text {\n" +
    "  text-align: center;\n" +
    "}\n" +
    ".u-margin-bottom-big {\n" +
    "  margin-bottom: 8rem;\n" +
    "}\n" +
    ".u-margin-bottom-medium {\n" +
    "  margin-bottom: 4rem;\n" +
    "}\n" +
    ".u-margin-bottom-small {\n" +
    "  margin-bottom: 1.5rem;\n" +
    "}\n" +
    ".u-margin-top-big {\n" +
    "  margin-top: 8rem;\n" +
    "}"

  /** `src/sass/style.scss`. */
  const StyleScss: string :=
    "@import \"abstracts/mixins\";\n" +
    "@import \"base/base\";\n" +
    "@import \"base/utilities\";"

  /** `src/js/script.js`. */
  const ScriptJs: string :=
    "'use strict';\n" +
    "\n" +
    "console.log('Script loaded');"

  /** `instrukcja/instrukcja.md`. */
  const InstrukcjaMd: string :=
    "# Instrukcja\n" +
    "\n" +
    "## Dodawanie plików zaimportowanych\n" +
    "\n" +
    "Aby dodać plik zaimportowany, należy w `index.kit` dodać wpis `@@include('_nav.kit')`, a w utworzonym pliku dodać zawartość np. `<nav></nav>`.\n" +
    "\n" +
    "## Sprawdzanie aktualizacji pakietów\n" +
    "\n" +
    "Aby sprawdzić aktualizacje pakietów i utworzyć plik z informacjami o aktualizacjach:\n" +
    "\n" +
    "1. Otwórz terminal w katalogu głównym projektu.\n" +
    "2. Wpisz polecenie `gulp checkPackageUpdates`.\n" +
    "3. Zadanie sprawdzi dostępne aktualizacje pakietów i wyświetli informacje o nich.\n" +
    "\n" +
    "## Tworzenie kopii zapasowej\n" +
    "\n" +
    "Aby utworzyć kopię zapasową projektu:\n" +
    "\n" +
    "1. Upewnij się, że w pliku `gulpfile.mjs` zdefiniowane jest zadanie `backupProject`.\n" +
    "2. Otwórz terminal w katalogu głównym projektu.\n" +
    "3. Wpisz polecenie `gulp backup`.\n" +
    "4. Kopia zostanie utworzona w folderze określonym w zmiennej `BACKUP_PATH` w pliku `.env`.\n" +
    "\n" +
    "## Ustawienia środowiskowe\n" +
    "\n" +
    "Pamiętaj, aby utworzyć plik `.env` w katalogu głównym projektu i dodać do niego odpowiednie zmienne środowiskowe, takie jak klucz API TinyPNG i dane dostępu do bazy danych.\n" +
    "\n" +
    "Przykład pliku `.env`:\n" +
    "\n" +
    "```\n" +
    "TINYPNG_API_KEY=Twój_Klucz_API_TinyPNG\n" +
    "DB_HOST=localhost\n" +
    "DB_NAME=blog\n" +
    "DB_USER=root\n" +
    "DB_PASSWORD=TwojeHasło\n" +
    "BACKUP_PATH=./backups\n" +
    "PORT=3005\n" +
    "```\n" +
    "\n" +
    "Upewnij się, że plik `.env` jest dodany do pliku `.gitignore`, aby nie został przypadkowo opublikowany.\n" +
    "\n" +
    "## Kompresja obrazów za pomocą TinyPNG\n" +
    "\n" +
    "Funkcja `compressImages` kompresuje obrazy za pomocą usługi TinyPNG. Upewnij się, że masz klucz API w pliku `.env`.\n" +
    "\n" +
    "## Uruchamianie projektu\n" +
    "\n" +
    "1. Upewnij się, że masz zainstalowane wszystkie zależności: `npm install`.\n" +
    "2. Uruchom projekt: `gulp`.\n" +
    "\n" +
    "## Dodatkowe informacje\n" +
    "\n" +
    "- Pliki SCSS znajdują się w folderze `src/sass`.\n" +
    "- Pliki JavaScript znajdują się w folderze `src/js`.\n" +
    "- Pliki szablonów `.kit` znajdują się w folderze `html`.\n"

  /** `.gitignore`. */
  const GitIgnore: string :=
    "node_modules/\n" +
    "dist/\n" +
    ".env\n" +
    "*.log\n" +
    "*.zip"

  /** `server.js`. */
  const ServerJsText: string :=
    "import path from \"path\";\n" +
    "      import express from \"express\";\n" +
    "      import routs from \"./routes/link.js\";\n" +
    "      import db from \"./data/database.js\";\n" +
    "      import browserSync from \"browser-sync\";\n" +
    "      import { time } from \"console\";\n" +
    "      import dotenv from \"dotenv\";\n" +
    "      dotenv.config(); // Wczytaj zmienne środowiskowe z pliku .env\n" +
    "      \n" +
    "      const app = express();\n" +
    "      const __dirname = path.resolve();\n" +
    "      \n" +
    "      // Aktywacja silnika widoków EJS\n" +
    "      app.set(\"view engine\", \"ejs\");\n" +
    "      app.set(\"views\", path.join(__dirname, \"views\"));\n" +
    "      \n" +
    "      app.use(express.urlencoded({ extended: true })); // Parsowanie ciał żądań\n" +
    "      app.use(\"/dist\", express.static(\"dist\")); // Serwowanie plików statycznych\n" +
    "      \n" +
    "      app.use(routs);\n" +
    "      \n" +
    "      // Obsługa błędów\n" +
    "      app.use(function (error, req, res, next) {\n" +
    "        console.log(error);\n" +
    "        res.status(500).render(\"500\");\n" +
    "      });\n" +
    "      \n" +
    "      const port = process.env.PORT || 3005;\n" +
    "      const browserSyncPort = parseInt(port, 10) + 1; // Port BrowserSync to PORT + 1\n" +
    "      \n" +
    "      app.listen(port, function () {\n" +
    "        console.log(`Server is running on port ${port}`);\n" +
    "      \n" +
    "        const bs = browserSync.create();\n" +
    "        bs.init({\n" +
    "          proxy: `http://localhost:${port}`, // Proxy dla serwera Express\n" +
    "          files: [\"views/**/*.ejs\", \"dist/css/*.css\", \"dist/js/*.js\"],\n" +
    "          port: browserSyncPort,\n" +
    "          open: true,\n" +
    "          notify: true,\n" +
    "        });\n" +
    "      });\n" +
    "      "

  /** `routes/link.js`. */
  const LinkJs: string :=
    "import express from \"express\";\n" +
    "const router = express.Router();\n" +
    "\n" +
    "router.get(\"/\", (req, res, next) => {\n" +
    "  res.render(\"index\");\n" +
    "});\n" +
    "\n" +
    "export default router;"

  /** `data/database.js`. */
  const DatabaseJs: string :=
    "import mysql from \"mysql2/promise\";\n" +
    "const pool = mysql.createPool({\n" +
    "  host: process.env.DB_HOST,\n" +
    "  database: process.env.DB_NAME,\n" +
    "  user: process.env.DB_USER,\n" +
    "  password: process.env.DB_PASSWORD,\n" +
    "});\n" +
    "\n" +
    "export default pool;\n" +
    "\n" +
    "// Jeśli używasz MongoDB, użyj poniższego kodu i odpowiednio zmodyfikuj plik .env\n" +
    "/*\n" +
    "import mongodb from \"mongodb\";\n" +
    "const MongoClient = mongodb.MongoClient;\n" +
    "let database;\n" +
    "\n" +
    "async function connect() {\n" +
    "  const client = await MongoClient.connect(process.env.MONGODB_URI);\n" +
    "  database = client.db(\"blog\");\n" +
    "}\n" +
    "\n" +
    "export function getDb() {\n" +
    "  if (!database) {\n" +
    "    throw new Error(\"Database not initialized\");\n" +
    "  }\n" +
    "  return database;\n" +
    "}\n" +
    "\n" +
    "export default {\n" +
    "  connectToDatabase: connect,\n" +
    "  getDb: getDb,\n" +
    "};\n" +
    "*/\n"

  /** `views/500.ejs`. */
  const ErrorEjs: string :=
    "<h1>Błąd serwera</h1>\n" +
    "<p>Przepraszamy, wystąpił błąd serwera.</p>"

  /** `src/php/app.php`. */
  const AppPhp: string :=
    "<?php\n" +
    "// Twój kod PHP\n" +
    "?>"


  /** The fourteen starter files. */
  datatype Template =
    | IndexKitFile | FooterKitFile | MixinsFile | BaseFile | UtilitiesFile | StyleFile
    | ScriptFile | ManualFile | GitIgnoreFile
    | ServerFile | LinkFile | DatabaseFile | ErrorPageFile | AppPhpFile

  /** The text of each starter file. */
  function Text(t: Template): string {
    match t
    case IndexKitFile => IndexKit
    case FooterKitFile => FooterKit
    case MixinsFile => MixinsScss
    case BaseFile => BaseScss
    case UtilitiesFile => UtilitiesScss
    case StyleFile => StyleScss
    case ScriptFile => ScriptJs
    case ManualFile => InstrukcjaMd
    case GitIgnoreFile => GitIgnore
    case ServerFile => ServerJsText
    case LinkFile => LinkJs
    case DatabaseFile => DatabaseJs
    case ErrorPageFile => ErrorEjs
    case AppPhpFile => AppPhp
  }
}

=== FILE: tinify.dfy ===
/**
 `compressImages`: the per-file decision whether an image is sent to the TinyPNG
 service, driven by a cache of modification times kept in `src/img/.tinify-cache.json`.
 A successful answer updates the cache and replaces the file; on an error the original
 file passes through and the cache is left as it was.
 */
module Tinify {
  import opened Wrappers

  /** The parsed cache file: relative image path to the `mtimeMs` it had when it was
      last compressed. */
  type Cache = map<string, int>

  /** What the service answers for one upload: the compressed bytes, or an error. */
  datatype Answer = Compressed(data: seq<bv8>) | ServiceError

  /**
   One file of the `gulp.src` stream. `answer` is what the service would reply if the
   file were uploaded; only buffered files (not streams or directories) are looked at.
   */
  datatype Image = Image(rel: string, mtime: int, isBuffer: bool, contents: seq<bv8>, answer: Answer)

  /**
   The cache test as written, `!cache[rel] || cache[rel] !== mtime`: a missing entry,
   an entry equal to 0 (which is falsy) or a different entry all send the file.
   */
  predicate NeedsCompressAsWritten(cache: Cache, rel: string, mtime: int) {
    rel !in cache || cache[rel] == 0 || cache[rel] != mtime
  }

  /** The cache test as intended: send when the entry is missing or differs. */
  predicate NeedsCompress(cache: Cache, rel: string, mtime: int) {
    rel !in cache || cache[rel] != mtime
  }

  /** The two tests disagree only on an image whose recorded and current mtime are both 0. */
  lemma {:induction false} RulesDifferOnlyAtZero(cache: Cache, rel: string, mtime: int)
    ensures NeedsCompressAsWritten(cache, rel, mtime) != NeedsCompress(cache, rel, mtime) <==>
      (rel in cache && cache[rel] == 0 && mtime == 0)
  {
  }

  /** Which cache test a run applies: the one in the source, or the intended one. */
  datatype Rule = AsWritten | Intended

  predicate Needs(rule: Rule, cache: Cache, rel: string, mtime: int) {
    match rule
    case AsWritten => NeedsCompressAsWritten(cache, rel, mtime)
    case Intended => NeedsCompress(cache, rel, mtime)
  }

  /** After one image: the cache, the file passed on down the stream, and whether the
      file was uploaded (pushed to `filesToProcess`). */
  datatype Visit = Visit(cache: Cache, out: Image, sent: bool)

  /** The `through2` transform for one file. */
  function Process(rule: Rule, cache: Cache, f: Image): (r: Visit)
    ensures r.sent <==> f.isBuffer && Needs(rule, cache, f.rel, f.mtime)
    ensures r.out.rel == f.rel && r.out.mtime == f.mtime && r.out.isBuffer == f.isBuffer
    ensures r.sent && f.answer.Compressed? ==>
      r.cache == cache[f.rel := f.mtime] && r.out.contents == f.answer.data
    ensures !(r.sent && f.answer.Compressed?) ==> r.cache == cache && r.out == f
    ensures forall k :: k != f.rel ==> (k in r.cache <==> k in cache)
    ensures forall k :: k != f.rel && k in cache ==> r.cache[k] == cache[k]
  {
    if f.isBuffer && Needs(rule, cache, f.rel, f.mtime) then
      match f.answer
      case ServiceError => Visit(cache, f, true)
      case Compressed(data) => Visit(cache[f.rel := f.mtime], f.(contents := data), true)
    else Visit(cache, f, false)
  }

  /** The state of the stream after a prefix of the files. */
  datatype Batch = Batch(cache: Cache, outs: seq<Image>, processed: seq<string>)

  /** The names of the images, in stream order. */
  function Rels(files: seq<Image>): (r: seq<string>)
    ensures |r| == |files|
    ensures forall i :: 0 <= i < |files| ==> r[i] == files[i].rel
  {
    seq(|files|, i requires 0 <= i < |files| => files[i].rel)
  }

  /**
   The whole stream, file by file in order. The images come out in the same order
   under the same names; `processed` lists the uploads, failed ones included, as
   `filesToProcess` does; cache entries of names not in the stream are untouched.
   */
  function CompressAll(rule: Rule, cache: Cache, files: seq<Image>): (r: Batch)
    ensures Rels(r.outs) == Rels(files)
    ensures |r.processed| <= |files|
    ensures forall k :: k in r.processed ==> k in Rels(files)
    ensures forall k :: k !in Rels(files) ==> (k in r.cache <==> k in cache)
    ensures forall k :: k !in Rels(files) && k in cache ==> r.cache[k] == cache[k]
    decreases |files|
  {
    if files == [] then Batch(cache, [], [])
    else
      var p, f := files[..|files| - 1], files[|files| - 1];
      var b := CompressAll(rule, cache, p);
      var v := Process(rule, b.cache, f);
      assert Rels(files) == Rels(p) + [f.rel];
      assert Rels(b.outs + [v.out]) == Rels(b.outs) + [v.out.rel];
      Batch(v.cache, b.outs + [v.out], if v.sent then b.processed + [f.rel] else b.processed)
  }

  /** `compressImages`: without `TINYPNG_API_KEY` it only copies (and neither reads nor
      writes the cache); otherwise it starts from the loaded cache, or from `{}` when the
      cache file is missing or does not parse. */
  function CompressImages(rule: Rule, hasKey: bool, loaded: Option<Cache>, files: seq<Image>): (r: Option<Batch>)
    ensures r.None? <==> !hasKey
    ensures hasKey && loaded.Some? ==> r == Some(CompressAll(rule, loaded.value, files))
    ensures hasKey && loaded.None? ==> r == Some(CompressAll(rule, map[], files))
  {
    if !hasKey then None else Some(CompressAll(rule, loaded.GetOr(map[]), files))
  }

  /** The rels of a list of images are pairwise different. */
  predicate DistinctRels(files: seq<Image>) {
    forall i, j :: 0 <= i < j < |files| ==> files[i].rel != files[j].rel
  }

  /**
   With distinct names, the cache after a run records each buffered image that was
   uploaded successfully with its mtime, and leaves every other entry of those names
   as it was.
   */
  lemma {:induction false} CompressAllCache(rule: Rule, cache: Cache, files: seq<Image>)
    requires DistinctRels(files)
    ensures forall i :: 0 <= i < |files| ==> ResultEntry(rule, cache, files[i], CompressAll(rule, cache, files).cache)
    decreases |files|
  {
    if files != [] {
      var n := |files|;
      var p, f := files[..n - 1], files[n - 1];
      CompressAllCache(rule, cache, p);
      var b := CompressAll(rule, cache, p);
      var after := Process(rule, b.cache, f).cache;
      assert CompressAll(rule, cache, files).cache == after;
      LastNameNew(files);
      ResultEntryLast(rule, cache, b.cache, f);
      forall i | 0 <= i < n - 1
        ensures ResultEntry(rule, cache, files[i], after)
      {
        assert p[i] == files[i];
        ResultEntryFrame(rule, cache, files[i], b.cache, after);
      }
    }
  }

  /**
   With distinct names, the stream emits one image per input, in order, each as its
   own visit against the cache before the run leaves it: the compressed bytes after a
   successful upload, the original file otherwise.
   */
  lemma {:induction false} CompressAllOuts(rule: Rule, cache: Cache, files: seq<Image>)
    requires DistinctRels(files)
    ensures |CompressAll(rule, cache, files).outs| == |files|
    ensures forall i :: 0 <= i < |files| ==> CompressAll(rule, cache, files).outs[i] == Process(rule, cache, files[i]).out
    decreases |files|
  {
    if files != [] {
      var n := |files|;
      var p, f := files[..n - 1], files[n - 1];
      CompressAllOuts(rule, cache, p);
      var b := CompressAll(rule, cache, p);
      LastNameNew(files);
      ProcessOutLocal(rule, b.cache, cache, f);
      var outs := CompressAll(rule, cache, files).outs;
      assert outs == b.outs + [Process(rule, b.cache, f).out];
      assert files == p + [f];
      OutsAppend(rule, cache, p, f, b.outs, outs);
    }
  }

  /** One more visit, against the same cache, extends a list of visit outputs. */
  lemma OutsAppend(rule: Rule, cache: Cache, p: seq<Image>, f: Image, outs: seq<Image>, outs': seq<Image>)
    requires |outs| == |p| && forall i :: 0 <= i < |p| ==> outs[i] == Process(rule, cache, p[i]).out
    requires outs' == outs + [Process(rule, cache, f).out]
    ensures |outs'| == |p + [f]|
    ensures forall i :: 0 <= i < |p + [f]| ==> outs'[i] == Process(rule, cache, (p + [f])[i]).out
  {
  }

  /** What one visit emits depends only on the cache entry of the image's own name. */
  lemma ProcessOutLocal(rule: Rule, c1: Cache, c2: Cache, f: Image)
    requires f.rel in c1 <==> f.rel in c2
    requires f.rel in c1 ==> c1[f.rel] == c2[f.rel]
    ensures Process(rule, c1, f).out == Process(rule, c2, f).out
  {
  }

  /** In a list with distinct names, the last name does not occur before it. */
  lemma LastNameNew(files: seq<Image>)
    requires DistinctRels(files) && files != []
    ensures files[|files| - 1].rel !in Rels(files[..|files| - 1])
    ensures forall i :: 0 <= i < |files| - 1 ==> files[i].rel != files[|files| - 1].rel
  {
    var p := files[..|files| - 1];
    assert forall i :: 0 <= i < |p| ==> Rels(p)[i] == files[i].rel;
  }

  /** The entry the last image leaves behind, when the run so far has kept the
      entry of its name as it was before the run. */
  lemma ResultEntryLast(rule: Rule, cache: Cache, c: Cache, f: Image)
    requires f.rel in c <==> f.rel in cache
    requires f.rel in cache ==> c[f.rel] == cache[f.rel]
    ensures ResultEntry(rule, cache, f, Process(rule, c, f).cache)
  {
  }

  /** An entry another image's visit does not touch stays as it was. */
  lemma ResultEntryFrame(rule: Rule, cache: Cache, g: Image, c1: Cache, c2: Cache)
    requires ResultEntry(rule, cache, g, c1)
    requires g.rel in c2 <==> g.rel in c1
    requires g.rel in c1 ==> c2[g.rel] == c1[g.rel]
    ensures ResultEntry(rule, cache, g, c2)
  {
  }

  /** With distinct names, an image is in `filesToProcess` exactly when it is buffered
      and its cache entry, as it stood before the run, fails the test. */
  lemma {:induction false} CompressAllProcessed(rule: Rule, cache: Cache, files: seq<Image>)
    requires DistinctRels(files)
    ensures forall i :: 0 <= i < |files| ==>
      (files[i].rel in CompressAll(rule, cache, files).processed <==>
       files[i].isBuffer && Needs(rule, cache, files[i].rel, files[i].mtime))
    decreases |files|
  {
    if files != [] {
      var n := |files|;
      var p, f := files[..n - 1], files[n - 1];
      CompressAllProcessed(rule, cache, p);
      LastNameNew(files);
      var b := CompressAll(rule, cache, p);
      var processed := CompressAll(rule, cache, files).processed;
      assert f.rel !in b.processed;
      assert processed == if Process(rule, b.cache, f).sent then b.processed + [f.rel] else b.processed;
      forall i | 0 <= i < n - 1
        ensures files[i].rel in processed <==> files[i].isBuffer && Needs(rule, cache, files[i].rel, files[i].mtime)
      {
        assert p[i] == files[i];
      }
    }
  }

  /** The entry of `f.rel` after a run, given the entry before it. */
  predicate ResultEntry(rule: Rule, cache: Cache, f: Image, after: Cache) {
    if f.isBuffer && Needs(rule, cache, f.rel, f.mtime) && f.answer.Compressed? then
      f.rel in after && after[f.rel] == f.mtime
    else
      (f.rel in after <==> f.rel in cache) && (f.rel in cache ==> after[f.rel] == cache[f.rel])
  }

  /**
   Under the intended test, running again over the same images resends exactly those
   whose upload failed: an image compressed successfully, or one that did not need
   it, is skipped.
   */
  lemma SecondRunResendsFailures(cache: Cache, files: seq<Image>, i: nat)
    requires DistinctRels(files)
    requires i < |files|
    ensures files[i].isBuffer && NeedsCompress(CompressAll(Intended, cache, files).cache, files[i].rel, files[i].mtime) <==>
      files[i].isBuffer && NeedsCompress(cache, files[i].rel, files[i].mtime) && files[i].answer.ServiceError?
  {
    CompressAllCache(Intended, cache, files);
    assert ResultEntry(Intended, cache, files[i], CompressAll(Intended, cache, files).cache);
  }

  /** Under the intended test, when every upload succeeds, a second run uploads nothing. */
  lemma {:induction false} SecondRunSendsNothing(cache: Cache, files: seq<Image>)
    requires DistinctRels(files)
    requires forall i :: 0 <= i < |files| ==> files[i].answer.Compressed?
    ensures CompressAll(Intended, CompressAll(Intended, cache, files).cache, files).processed == []
  {
    var c := CompressAll(Intended, cache, files).cache;
    forall i | 0 <= i < |files|
      ensures !(files[i].isBuffer && Needs(Intended, c, files[i].rel, files[i].mtime))
    {
      SecondRunResendsFailures(cache, files, i);
    }
    NothingNeededSendsNothing(Intended, c, files);
  }

  /** A run over images none of which fails the test uploads nothing and keeps the cache. */
  lemma {:induction false} NothingNeededSendsNothing(rule: Rule, cache: Cache, files: seq<Image>)
    requires forall i :: 0 <= i < |files| ==> !(files[i].isBuffer && Needs(rule, cache, files[i].rel, files[i].mtime))
    ensures CompressAll(rule, cache, files).processed == [] && CompressAll(rule, cache, files).cache == cache
    decreases |files|
  {
    if files != [] {
      NothingNeededSendsNothing(rule, cache, files[..|files| - 1]);
    }
  }

  /**
   With the test as written, an image with mtime 0 is uploaded again on the run right
   after it was compressed and recorded; with the intended test the second run skips it.
   */
  lemma AsWrittenResendsZeroMtime(data: seq<bv8>)
    ensures var files := [Image("a.png", 0, true, [], Compressed(data))];
      var first := CompressAll(AsWritten, map[], files);
      && first.cache == map["a.png" := 0]
      && CompressAll(AsWritten, first.cache, files).processed == ["a.png"]
      && CompressAll(Intended, CompressAll(Intended, map[], files).cache, files).processed == []
  {
    var files := [Image("a.png", 0, true, [], Compressed(data))];
    assert files[..0] == [];
  }
}

=== FILE: unlink.dfy ===
/**
 The `unlink` handlers of `watchFiles`: when a watched script or image is deleted,
 the build output it produced is located by rewriting the reported path as a string,
 and removed if it exists.
 */
module Unlink {
  import opened Wrappers
  import opened Strings

  /** `pat` occurs in `s` starting at index `i`. */
  predicate OccursAt(s: string, pat: string, i: int) {
    0 <= i && i + |pat| <= |s| && s[i..i + |pat|] == pat
  }

  /** `.replace(/\\/g, "/")`: every backslash becomes a forward slash. */
  function Normalize(s: string): (r: string)
    ensures |r| == |s|
    ensures forall i :: 0 <= i < |s| ==> r[i] == (if s[i] == '\\' then '/' else s[i])
    ensures '\\' !in r
  {
    if s == [] then []
    else (if s[0] == '\\' then "/" else [s[0]]) + Normalize(s[1..])
  }

  /** Normalizing twice is normalizing once. */
  lemma NormalizeIdempotent(s: string)
    ensures Normalize(Normalize(s)) == Normalize(s)
  {
    var n := Normalize(s);
    assert Normalize(n) == n by {
      assert forall i :: 0 <= i < |n| ==> n[i] != '\\';
    }
  }

  /** The first occurrence of `pat` in `s` at or after `k`. */
  function FindFrom(s: string, pat: string, k: nat): (r: Option<nat>)
    requires k <= |s|
    ensures r.Some? ==> k <= r.value && OccursAt(s, pat, r.value)
    ensures r.Some? ==> forall j :: k <= j < r.value ==> !OccursAt(s, pat, j)
    ensures r.None? ==> forall j :: k <= j ==> !OccursAt(s, pat, j)
    decreases |s| - k
  {
    if k + |pat| > |s| then None
    else if s[k..k + |pat|] == pat then Some(k)
    else FindFrom(s, pat, k + 1)
  }

  /** `i` is the first place `pat` occurs in `s`. */
  predicate FirstAt(s: string, pat: string, i: int) {
    OccursAt(s, pat, i) && forall j :: 0 <= j < i ==> !OccursAt(s, pat, j)
  }

  /** `String.prototype.replace` with a string pattern: only the first occurrence
      is replaced, and a string without one comes back unchanged. */
  function ReplaceFirst(s: string, pat: string, rep: string): (r: string)
    ensures (forall j :: !OccursAt(s, pat, j)) ==> r == s
    ensures forall i :: FirstAt(s, pat, i) ==> r == s[..i] + rep + s[i + |pat|..]
  {
    match FindFrom(s, pat, 0)
    case None => s
    case Some(i) =>
      assert forall i' :: FirstAt(s, pat, i') ==> i' == i;
      s[..i] + rep + s[i + |pat|..]
  }

  /** A string that starts with the pattern has exactly that prefix replaced. */
  lemma ReplacePrefix(pat: string, rest: string, rep: string)
    ensures ReplaceFirst(pat + rest, pat, rep) == rep + rest
  {
    var s := pat + rest;
    assert FirstAt(s, pat, 0) by {
      assert s[..|pat|] == pat;
    }
    assert s[|pat|..] == rest;
  }

  /** `.replace(/\.js$/, ".min.js")`: a final `.js` becomes `.min.js`. */
  function MinJsSuffix(s: string): (r: string)
    ensures EndsWith(s, ".js") ==> EndsWith(r, ".min.js") && r[..|r| - 7] == s[..|s| - 3]
    ensures !EndsWith(s, ".js") ==> r == s
  {
    if EndsWith(s, ".js") then
      var r := s[..|s| - 3] + ".min.js";
      assert r[|r| - 7..] == ".min.js";
      r
    else s
  }

  /** The output a deleted script had, as the handler computes it: separators
      normalized, the first `src/js/` (wherever it occurs) turned into `dist/js/`,
      and a final `.js` into `.min.js`. */
  function JsUnlinkPath(filePath: string): (r: string)
    ensures (forall j :: !OccursAt(Normalize(filePath), "src/js/", j)) ==> r == MinJsSuffix(Normalize(filePath))
    ensures forall i :: FirstAt(Normalize(filePath), "src/js/", i) ==>
      r == MinJsSuffix(Normalize(filePath)[..i] + "dist/js/" + Normalize(filePath)[i + 7..])
  {
    MinJsSuffix(ReplaceFirst(Normalize(filePath), "src/js/", "dist/js/"))
  }

  /** The output a deleted image had, as the handler computes it: separators
      normalized and the first `src/img/` (wherever it occurs) turned into `dist/img/`. */
  function ImgUnlinkPath(filePath: string): (r: string)
    ensures (forall j :: !OccursAt(Normalize(filePath), "src/img/", j)) ==> r == Normalize(filePath)
    ensures forall i :: FirstAt(Normalize(filePath), "src/img/", i) ==>
      r == Normalize(filePath)[..i] + "dist/img/" + Normalize(filePath)[i + 8..]
  {
    ReplaceFirst(Normalize(filePath), "src/img/", "dist/img/")
  }

  /** Where `minifyJS` writes a script at `src/js/<rel>`: `rename({ suffix: ".min" })`
      puts `.min` before the `.js` extension, and `gulp.dest` puts it below `dist/js`. */
  function MinifyJsOutput(rel: string): string
    requires EndsWith(rel, ".js")
  {
    "dist/js/" + rel[..|rel| - 3] + ".min" + ".js"
  }

  /** Where `copyImages` writes an image at `src/img/<rel>`: same name below `dist/img`. */
  function CopyImagesOutput(rel: string): string {
    "dist/img/" + rel
  }

  /** Whatever separators the watcher reports, a deleted script maps to the very
      file `minifyJS` produced for it. */
  lemma JsUnlinkMatchesBuild(filePath: string, rel: string)
    requires Normalize(filePath) == "src/js/" + rel
    requires EndsWith(rel, ".js")
    ensures JsUnlinkPath(filePath) == MinifyJsOutput(rel)
  {
    ReplacePrefix("src/js/", rel, "dist/js/");
    var t := "dist/js/" + rel;
    assert JsUnlinkPath(filePath) == MinJsSuffix(t);
    assert EndsWith(t, ".js") by {
      assert t[|t| - 3..] == rel[|rel| - 3..];
    }
    assert t[..|t| - 3] == "dist/js/" + rel[..|rel| - 3];
  }

  /** Whatever separators the watcher reports, a deleted image maps to the very
      file `copyImages` produced for it: name and extension are kept. */
  lemma ImgUnlinkMatchesBuild(filePath: string, rel: string)
    requires Normalize(filePath) == "src/img/" + rel
    ensures ImgUnlinkPath(filePath) == CopyImagesOutput(rel)
  {
    ReplacePrefix("src/img/", rel, "dist/img/");
  }

  /** A script path without a final `.js` keeps its ending: only the folder is
      rewritten. */
  lemma JsUnlinkKeepsOtherSuffix(filePath: string, rel: string)
    requires Normalize(filePath) == "src/js/" + rel
    requires !EndsWith(rel, ".js")
    ensures JsUnlinkPath(filePath) == "dist/js/" + rel
  {
    ReplacePrefix("src/js/", rel, "dist/js/");
    var t := "dist/js/" + rel;
    if |rel| >= 3 {
      assert t[|t| - 3..] == rel[|rel| - 3..];
    } else {
      assert t[|t| - 3] == "dist/js/"[|rel| + 5];
    }
  }
}

=== FILE: wrappers.dfy ===
/** Failure-compatible wrappers shared by the other modules. */
module Wrappers {

  /** An optional value: the build script's `undefined` is `None`. */
  datatype Option<+T> = None | Some(value: T) {

    /** The wrapped value, or `default` when there is none. */
    function GetOr(default: T): T {
      match this
      case Some(v) => v
      case None => default
    }
  }

  /** The outcome of a filesystem call that can throw. */
  datatype Result<+T, +E> = Success(value: T) | Failure(error: E)
}
